=== FILE: README.md ===
# To-do lists with a Pomodoro timer, in Dafny

`main.py` is a Tk desktop application. It keeps named to-do lists, one per
notebook tab. Each list is an insertion-ordered dict from task text to a node
`{"completed": bool, "subtasks": {...}}`, so tasks nest without limit. A
Pomodoro timer counts a work interval down second by second and rings an alarm.

This project models the data logic behind the widgets:

- `Wrappers`: `Option` and `Result`.
- `Text`: the pieces of Python string behaviour the program relies on.
  - `str.strip()` with Python's whitespace set.
  - `str.isdigit()` and `int()` on ASCII digits. `int()` reads at most 4300 digits, CPython's default limit; a longer digit string raises a ValueError.
  - `str()` of a natural number.
  - `{:02d}` padding.
- `Seqs`: a fact about sequence concatenation that the other modules share.
- `AssocList`: a Python dict as a sequence of key/value pairs with distinct keys.
  - `Put` is `d[k] = v`: an existing key keeps its place, a new key goes last.
  - `Remove` is `del d[k]`.
- `Tasks`: the task tree.
  - A `Node` is a completion flag plus an association list of children.
  - `add_task`, `delete_task` and `mark_task_complete` act on one map.
  - Subtask insertion and deletion act on the children of the node reached by a path of keys.
  - A path of keys stands for the live dict reference (`parent_task`) that the UI passes around.
  - The module also covers the checkbox and delete buttons as `display_task` wires them, and a corrected version of each.
- `Registry`: the lists themselves, as a `map<string, TaskMap>`, plus the name of the selected tab.
  - `create_unique_list_name`, `add_tab`, `tab_changed`.
  - Renaming and deleting a list.
  - Edits of one list's tree.
- `Pomodoro`: the timer as `run_pomodoro` behaves, one call exactly (`RunSteps`) and one second of the event loop at a time.
  - Each `after(1000, run_pomodoro, s - 1)` is kept as a pending callback argument.
  - A `Tick` is one second of the event loop, in which every callback armed during the previous second fires. A press of Start or Stop happens between ticks, never between two callbacks of the same second. Two callbacks are armed at once only after a stop and a restart. Then Tk may run a press between them, and a label value shown in passing can differ from the model's.
  - `stop_pomodoro` does not cancel a pending callback, and the model keeps that.
  - The `customize_timer` dialog: its validation, and the ValueError that `int()` raises on an over-long entry after the work time may already be set.
  - The label is kept as the number of seconds it shows. Its text is `Clock` of that number.
  - `Run`, `Fire`, `Tick`, `Ticks` and `Clock` are plain functions, and what they do is stated by lemmas (`RunSteps`, `FireBounds`, `TickBounds`, `TicksBounds`, `ClockZero`, `ClockReadsBack` and the counting lemmas).
- `IntervalTimer`: a corrected work-then-break timer, which is what `run_pomodoro` evidently aims for. It is the corrected side of the timer findings.
  - It has explicit idle, work and break phases and a single countdown.
  - It refuses zero durations.
- `TimerAgreement`: the two timers run side by side from rest.

## Model

| member | source | states |
|---|---|---|
| AssocList.Put | main.py:143 | dict assignment: the key then maps to the new value and every other key's value is unchanged. An existing key keeps its position, and the entries at every other position are untouched. A new key is appended last. Keys stay distinct. |
| AssocList.Remove | main.py:149-150 | `del`: the key is gone and every other key's value is unchanged. Removing an absent key leaves the map equal to the input. No entry is invented, and keys stay distinct. |
| AssocList.Lookup | main.py:149-155 | `k in d` and `d[k]`: a key is absent exactly when it is not among the keys, and a value found is one bound to that key |
| AssocList.RemoveCutsEntry | main.py:147-151 | deleting a present key cuts exactly that one entry out: the entries before and after it keep their relative order and the length drops by one |
| Text.Strip | main.py:139 | `strip()`: the result is a contiguous slice of the input with only whitespace on either side cut off. It neither starts nor ends with whitespace. It is empty exactly when the input is all whitespace. |
| Text.StripIdempotent | main.py:139 | stripping twice is stripping once |
| Text.StripTrimmed | main.py:267-268 | a string that neither starts nor ends with whitespace is its own strip (the dialog's pre-filled numbers pass through unchanged) |
| Text.StripNumber | main.py:284 | a number printed with `str()` has no whitespace for `strip()` to remove, so it is its own strip |
| Text.NatToString | main.py:284 | `str(n)`: a canonical digit string (no leading zero unless it is "0") whose decimal value is n |
| Text.CanonicalRoundTrip | main.py:269-271 | `str(int(s)) == s` for every canonical digit string, so `int` and `str` are inverse on them |
| Text.NatToStringInjective | main.py:131-135 | different numbers print differently |
| Text.Pad2 | main.py:251-252 | `{:02d}`: digits only, at least two of them, whose value is the number; exactly two below 100. From 10 on it is exactly `str(n)`; below 10 it is a '0' followed by `str(n)`. |
| Text.LeadingZeroValue | main.py:269-271 | `int()` reads a digit string with a '0' in front as the same number |
| Text.ZeroPaddedNumber | main.py:269-271 | `isdigit()` accepts `str(n)` behind any number of zeros, and `int()` reads it back as n |
| Text.DigitsAreZeroPadded | main.py:269-271 | conversely, every string `isdigit()` accepts is some zeros followed by `str()` of the number `int()` reads from it, so `IsDigits` and `DigitsValue` describe exactly the zero-padded numerals |
| Pomodoro.ClockZero | main.py:246 | the label text of zero seconds is "00:00", the text set at startup and by stop |
| Pomodoro.ClockReadsBack | main.py:250-252 | the `mm:ss` text read back as minutes·60 + seconds gives the seconds shown. The seconds field is below 60, and the text is five characters below 100 minutes. |
| Tasks.AddTask | main.py:138-145 | blank text after strip leaves the map unchanged. Otherwise the stripped text maps to a fresh node (not completed, no subtasks), even when it already existed and so loses its flag and subtree. Every other key's node and position are kept, a new key is appended last, and well-formedness is kept. |
| Tasks.DeleteTask | main.py:147-151 | an absent key leaves the map unchanged. A present key is gone while every other key's node is unchanged. With distinct keys the result is the map with that one entry cut out, order kept. |
| Tasks.MarkTaskComplete | main.py:153-157 | an absent key leaves the map unchanged. A present key's node has its flag inverted and its subtasks kept. Every other key's node and the key order are unchanged. |
| Tasks.MarkTaskCompleteTwice | main.py:153-157 | toggling the same key twice restores the map |
| Tasks.ToggleChangesOneFlag | main.py:153-157 | a top-level toggle changes no completion flag anywhere in the tree except that key's own |
| Tasks.AddSubtask | main.py:159-167 | through the parent reference from the row (main.py:217), the parent's children become `AddTask` of the old children. A parent no longer in the tree leaves everything unchanged. No flag outside the parent's children changes, the parent's own flag included. Every node neither on the path to the parent nor below it is unchanged. The dicts that hold the parent and its ancestors keep their keys and order, so a nested parent leaves the top-level keys as they were. Well-formedness is kept. |
| Tasks.DeleteSubtask | main.py:181-186 | through the parent reference, the parent's children become `DeleteTask` of the old children. A missing parent leaves everything unchanged. No flag outside the parent's children changes. Every node neither on the path to the parent nor below it is unchanged. The dicts that hold the parent and its ancestors keep their keys and order, so a nested parent leaves the top-level keys as they were. Well-formedness is kept. |
| Tasks.DeleteSubtaskUnreachable | main.py:181-186 | after the delete, no path through the deleted key reaches any node: the whole subtree is gone |
| Tasks.EditAtKeepsKeysAbove | main.py:159-186 | an edit through a parent reference leaves the dicts that hold the parent and its ancestors with the same keys in the same order |
| Tasks.EditAtKeepsFlags | main.py:163-166 | an edit of one node's children changes no completion flag outside that node's subtree |
| Tasks.ToggleAtTwice | main.py:153-157 | toggling the same key of the same children map twice, at any depth, restores the tree |
| Tasks.RowCheckbox | main.py:209 | as written, a row's checkbox looks its own text up among the top-level tasks. A top-level task with that text has its flag flipped, every other flag in the tree is kept, and the key order is unchanged. Without such a task the tree is unchanged. |
| Tasks.RowDelete | main.py:222 | as written, a row's Delete button removes the top-level task with the row's text. That text is no top-level key afterwards, every other top-level key keeps its node, and without such a task the tree is unchanged. |
| Tasks.RowButtonsMissSubtask | main.py:206-223 | as written, the checkbox and Delete button of a nested row act on the top-level task with the same text. If there is none they do nothing. If there is one, that top-level task is flipped or deleted instead. |
| Tasks.RowCheckboxExample | main.py:209 | concrete instance: ticking the nested "Buy 2%" row leaves it unticked, where the corrected checkbox ticks it |
| Tasks.RowDeleteExample | main.py:222 | concrete instance: deleting the nested "Buy 2%" row leaves it in the tree, where the corrected delete removes it |
| Tasks.ToggleNode | main.py:206-211 | the corrected checkbox flips the flag of the row's own node and keeps its subtasks. It changes no other flag in the tree, leaves the tree unchanged when the row is gone, and keeps well-formedness. |
| Tasks.ToggleNodeTwice | main.py:206-211 | ticking a row twice restores the tree |
| Tasks.DeleteNodeRemovesSubtree | main.py:220-223 | the corrected Delete button removes the row's node: no path through the row reaches a node afterwards |
| Registry.ListNameInjective | main.py:131-135 | `f"{base} {count}"` determines the count |
| Registry.ListNameParts | main.py:132 | `f"{base} {count}"` is the base, one space, and the count printed canonically, which reads back as the count |
| Registry.CreateUniqueListName | main.py:130-136 | the result is `base + " " + k` and is not a list name yet. Every count 1 ≤ j < k is taken, so k is the least free count. The loop ends with k ≤ number of lists + 1. |
| Registry.AddTab | main.py:83-108 | a new list with no tasks under the name "base k", where k ≥ 1 is the least count whose name is not a list yet. Every existing list and the selection are unchanged. |
| Registry.TabChanged | main.py:118-128 | selecting a tab makes its text the current list and nothing else changes. The "+" tab instead adds an empty list named "List k", for the least k ≥ 1 whose name is free, and selects it. |
| Registry.RenameList | main.py:298-307 | succeeds exactly when the stripped new name is non-empty, not already a list name (so its own name is refused), and the old list still exists. An empty or taken name gives the "Invalid Name" error and leaves the registry untouched. A valid new name with a stale old name is the KeyError of `pop`, `NoSuchList`. On success the new name holds the old list's tasks, the old name is gone, and every other list and the selection are unchanged. |
| Registry.RenameRoundTrip | main.py:298-307 | renaming a list and renaming it back restores the registry |
| Registry.DeleteList | main.py:322-328 | nothing happens unless confirmed. Once confirmed, an existing list is dropped with its tasks, and a stale name is the KeyError, `NoSuchList`; no other error occurs. Every other list and the selection are unchanged. |
| Registry.DeleteThenCreate | main.py:130-136 | deleting "base k" out of "base 1".."base k" and adding a list under base gives back "base k" |
| Registry.EditList | main.py:138-145 | a tree edit of one named list. A blank insertion is dropped before the list is looked up. Otherwise a missing list is the KeyError, `NoSuchList`, the only error. Only that list changes, by exactly the tree edit. |
| Pomodoro.Stop | main.py:243-246 | the flag is cleared and the label reset to zero seconds, which `ClockZero` shows reads "00:00". The pending callbacks, settings and alarm count are kept. |
| Pomodoro.RunSteps | main.py:248-260 | one `run_pomodoro(s)` call: a stopped timer ignores it. With s > 0 it shows s and arms exactly s − 1 behind the callbacks already armed, and nothing else changes. At zero it rings once. With work ≠ 0 it then stops with the label reset and nothing new armed. With work 0 the zero equals the work seconds, so a break of brk·60 starts, or the call recurses without end when brk is 0 too. Armed callbacks are never cancelled, and the settings never change. |
| Pomodoro.Start | main.py:237-241 | a press while running does nothing, and the settings are kept. What a press while stopped does is `StartFromRest`. |
| Pomodoro.StartFromRest | main.py:237-241 | a press while stopped, with work > 0, sets the flag, shows work·60 and arms work·60 − 1 behind every callback a stop left armed. Nothing else changes. |
| Pomodoro.FireBounds | main.py:248-260 | callbacks firing one after another each ring at most once and arm at most one callback. None already armed is cancelled, and the settings are kept. |
| Pomodoro.TickBounds | main.py:248-260 | in one second of the event loop at most one alarm rings per callback that fires, and no more callbacks end up armed than fired. A stopped timer only lets its callbacks expire. |
| Pomodoro.TicksBounds | main.py:248-260 | over any number of seconds the settings stay, alarms only accumulate, and the number of armed callbacks never grows. After at least one second, a stopped timer has nothing armed and is otherwise unchanged. |
| Pomodoro.FireCounting | main.py:248-254 | callbacks with time left keep the timer running with no alarm, and each re-arms one second lower, in order |
| Pomodoro.TicksCounting | main.py:248-254 | while every armed countdown has at least n seconds left, n ticks lower each by exactly n and ring nothing |
| Pomodoro.TickCountsDown | main.py:249-254 | running with s > 0 armed, a tick shows s and re-arms exactly s − 1 |
| Pomodoro.TicksAfterStop | main.py:243-249 | after stop, every later tick only lets the armed callbacks expire: nothing is shown, rung or re-armed |
| Pomodoro.WorkCountdown | main.py:237-254 | from rest with work > 0, for every n < work·60 the timer is still running after n ticks, with work·60 − 1 − n armed and no alarm |
| Pomodoro.WorkEndsWithoutBreak | main.py:248-260 | from rest with work > 0, after work·60 or more ticks the alarm has rung once and the timer is stopped with nothing armed: the break never starts |
| Pomodoro.RestartEndsEarly | main.py:237-260 | stop then start with p seconds still armed leaves two countdowns. The old one rings and stops the timer after p + 1 ticks, before the new work interval ends. |
| Pomodoro.ZeroWorkRepeatsBreak | main.py:255-258 | with work 0, each zero rings and starts the break again |
| Pomodoro.ZeroTimesCrash | main.py:255-258 | with both times 0, start recurses without end |
| Pomodoro.SaveCustomTime | main.py:266-274 | the message box appears, and nothing changes, exactly when a stripped entry is not a non-empty digit string ("0" is one). The dialog is saved exactly when both are digit strings of at most 4300 digits. Both times then take their values and nothing else changes. A longer work entry raises with nothing set. A longer break entry raises after the work time has been set, so the break keeps its old value. |
| Pomodoro.SaveUneditedDialog | main.py:266-291 | saving the dialog as it opens, pre-filled with `str()` of both times, is never refused and changes no time. It is saved exactly when both numbers print within 4300 digits. |
| Pomodoro.SaveNumbers | main.py:266-274 | any two printed numbers within 4300 digits, zero included, are saved and read back as themselves. A longer work number raises with nothing set. A longer break number raises with only the work time set. |
| IntervalTimer.Start | main.py:237-241 | from idle, a full work countdown starts; otherwise nothing changes |
| IntervalTimer.Stop | main.py:243-246 | the countdown is cancelled: idle with nothing left |
| IntervalTimer.Tick | main.py:248-260 | above one second left, the countdown goes down by one. The last second rings once and moves from work to a full break, or from break to idle. Validity is kept. |
| IntervalTimer.TicksCountdown | main.py:248-254 | fewer ticks than seconds left only count down, in the same phase, with no alarm |
| IntervalTimer.TicksValid | main.py:248-260 | ticks keep the timer valid |
| IntervalTimer.PhaseEnds | main.py:255-260 | exactly as many ticks as seconds left end the phase with one alarm, entering the full break after work or idle after the break |
| IntervalTimer.FullCycle | main.py:248-260 | from idle, after work·60 ticks the work alarm has rung and the full break is counting. After a further brk·60 ticks the timer is idle again with two alarms more. |
| IntervalTimer.WorkQuiet | main.py:248-254 | no alarm rings before the last second of the work interval |
| IntervalTimer.RestartRunsFull | main.py:237-254 | stop then start always gives a full work interval: no alarm for work·60 − 1 ticks, one at work·60 |
| IntervalTimer.Configure | main.py:266-274 | accepted exactly when both stripped entries are digit strings with positive value. Both durations then change and nothing else does. |
| IntervalTimer.ConfigureNumbers | main.py:266-274 | every positive number of minutes is accepted as itself; zero for either duration is refused |
| TimerAgreement.WorkPhaseAgrees | main.py:237-254 | for every second of the work interval short of its last, both timers are running with the same alarm count, and the callback armed in main.py is one below the seconds the corrected timer has left |
| TimerAgreement.WorkEndDiverges | main.py:255-260 | at the end of the work interval both ring once, but only the corrected timer is on break; main.py is stopped |

## Left out

- Widgets, tabs and dialogs are not modelled: frames, notebook tab indices, `display_tasks`/`display_task` rendering, Toplevel windows, and relabelling or forgetting a tab after rename or delete. They are all presentation. As a consequence, `Registry.current` changes only through `tab_changed`.
- Persistence is not modelled. `load_tasks`/`save_tasks` (main.py:22-31) are file I/O and JSON, so `save_and_refresh` has no counterpart.
- `winsound.Beep` (main.py:262-263) is left out: an alarm is only counted. `self.after` is reduced to the queue of pending callback arguments that one `Tick` fires.
- The `parent_task is None` branches of `add_subtask` and `delete_subtask` (main.py:164, main.py:183) are not modelled. They index the node dict itself rather than its subtasks. The only widget that reaches either function is the Add Subtask button (main.py:217), and it always passes a parent.
- No widget calls `delete_subtask`, `rename_tab` or `delete_tab` (main.py:181, main.py:298, main.py:322). `Tasks.DeleteSubtask`, `Registry.RenameList` and `Registry.DeleteList` therefore model functions that the UI as written never reaches.
- `mark_subtask_complete` (main.py:231-235) is not modelled. It is never called, and with a parent it looks up a key "subtasks" among the subtasks.
- The startup state holds both "Default", the loaded dict (main.py:43), and "Default 1" (main.py:62, main.py:85, main.py:107). It is not modelled; the registry is an abstract name-to-tasks map.
- The unused `time`, `datetime` and `threading` imports are left out.
- Text.IsDigits: `str.isdigit` also accepts non-ASCII digits. Only ASCII '0'..'9' are modelled.
- Pomodoro.SaveCustomTime: only ASCII digit entries are modelled. In Python, `isdigit` and `int()` also accept other decimal digits, such as Arabic-Indic ones, and read them as numbers. Superscript digits such as '²' pass `isdigit`, but then `int()` raises a ValueError inside the callback. In the break entry this happens after main.py:270 has set the work time, the same partial update the `Raised` outcome shows for an over-long break entry.
- IntervalTimer.Configure: reads digit strings of any length. The 4300-digit limit of `int()` is modelled only for the dialog as written (`Pomodoro.SaveCustomTime`).
- Pomodoro.ZeroTimesCrash: the RecursionError is a flag, because Python's recursion limit is outside the model. The model counts one alarm. Python calls `play_alarm` on every recursive frame until the RecursionError.
- Registry.TabChanged: the "+" tab is created disabled (main.py:113), so a click cannot select it, and the "+" branch of `tab_changed` may never run. The branch is modelled as written.
- Tasks.AddSubtask: a parent reference that was deleted and then re-added under the same text is, in Python, a detached dict. So is one whose text was added again with `add_task` (main.py:143), which replaces the node while the rows' lambdas still hold the old dict. The model's path reaches the new node instead. Only paths to live nodes are modelled faithfully.
- Registry.EditList: `add_task` reads the list name from the selected tab, not from a parameter. The model takes the name as an argument, which is the selected tab's text.

Behaviour the code has that a reader might not expect; the model keeps it:

- `add_task` with the text of an existing task replaces that task, and its subtasks, by a fresh node (main.py:143).
- `save_custom_time` accepts "0" for either duration (main.py:269-271).
- `tab_changed` makes any tab text other than "+" the current list, without looking it up (main.py:128).
- A list name that is no longer in `task_lists` makes the code raise a KeyError. The model reports it as `NoSuchList`.

## Findings

| source | as written | input that shows it | evidently intended | confidence | as-written member | corrected member |
|---|---|---|---|---|---|---|
| main.py:209 | a nested row's checkbox calls `mark_task_complete(text)` on the top-level map | list `{"Buy milk": {subtasks: {"Buy 2%"}}}`, tick "Buy 2%": nothing changes; with a top-level "Buy 2%" too, that one is ticked | flip the row's own node | not executed | Tasks.RowCheckboxExample | Tasks.ToggleNode |
| main.py:222 | a nested row's Delete calls `delete_task(text)` on the top-level map | delete the nested "Buy 2%": it stays; a top-level task with the same text is deleted instead | remove the row's own node with its subtree | not executed | Tasks.RowDeleteExample | Tasks.DeleteNodeRemovesSubtree |
| main.py:257 | the break starts only if the zero reached equals `work_minutes * 60` | work 25, break 5: after 1500 ticks one alarm and the timer is stopped; the break never runs | at the end of work, count the break down, ring, go idle | not executed | Pomodoro.WorkEndsWithoutBreak | IntervalTimer.FullCycle |
| main.py:243-246 | `stop_pomodoro` leaves the pending `after` callback armed | stop and start again with 10 seconds left: the old chain rings and stops the timer after 11 ticks | stopping cancels the countdown; a restart runs a full interval | not executed | Pomodoro.RestartEndsEarly | IntervalTimer.RestartRunsFull |
| main.py:269 | `isdigit` accepts "0" | work "0", break "0", Start: `run_pomodoro` recurses on itself until RecursionError | refuse non-positive durations | not executed | Pomodoro.ZeroTimesCrash | IntervalTimer.ConfigureNumbers |

=== FILE: agreement.dfy ===
/**
 * The timer of main.py and the corrected timer side by side: started
 * from rest with the same settings, they count the work interval down in
 * lockstep, and part at its last second, where main.py stops instead of
 * starting the break.
 */
module TimerAgreement {
  import Pomodoro
  import IntervalTimer

  /** The corrected timer at rest with the settings and alarm count of `p`. */
  function AtRest(p: Pomodoro.Timer): (q: IntervalTimer.Interval)
    ensures q.phase == IntervalTimer.Idle && q.work == p.work && q.brk == p.brk && q.alarms == p.alarms
    ensures p.work > 0 && p.brk > 0 ==> IntervalTimer.Valid(q)
  {
    IntervalTimer.Interval(IntervalTimer.Idle, 0, p.work, p.brk, p.alarms)
  }

  /**
   * For every second of the work interval short of its last, both timers
   * are running with no new alarm, and the callback main.py has armed is
   * one below the seconds the corrected timer has left.
   */
  lemma WorkPhaseAgrees(p: Pomodoro.Timer, n: nat)
    requires !p.running && p.pending == [] && p.work > 0 && p.brk > 0
    requires n < p.work * 60
    ensures Pomodoro.Ticks(Pomodoro.Start(p), n).running
    ensures IntervalTimer.Ticks(IntervalTimer.Start(AtRest(p)), n).phase == IntervalTimer.Working
    ensures Pomodoro.Ticks(Pomodoro.Start(p), n).pending == [IntervalTimer.Ticks(IntervalTimer.Start(AtRest(p)), n).remaining - 1]
    ensures Pomodoro.Ticks(Pomodoro.Start(p), n).alarms == IntervalTimer.Ticks(IntervalTimer.Start(AtRest(p)), n).alarms
  {
    Pomodoro.WorkCountdown(p, n);
    IntervalTimer.WorkQuiet(AtRest(p), n);
  }

  /**
   * At the end of the work interval both ring once, but only the corrected
   * timer goes on to the break; main.py is stopped.
   */
  lemma WorkEndDiverges(p: Pomodoro.Timer)
    requires !p.running && p.pending == [] && p.work > 0 && p.brk > 0
    ensures Pomodoro.Ticks(Pomodoro.Start(p), p.work * 60).alarms == p.alarms + 1
    ensures !Pomodoro.Ticks(Pomodoro.Start(p), p.work * 60).running
    ensures IntervalTimer.Ticks(IntervalTimer.Start(AtRest(p)), p.work * 60).alarms == p.alarms + 1
    ensures IntervalTimer.Ticks(IntervalTimer.Start(AtRest(p)), p.work * 60).phase == IntervalTimer.OnBreak
  {
    Pomodoro.WorkEndsWithoutBreak(p, p.work * 60);
    IntervalTimer.FullCycle(AtRest(p));
  }
}

=== FILE: assoc.dfy ===
/**
 * Python's insertion-ordered `dict` keyed by text, as an association list: a
 * sequence of (key, value) pairs read from the front. Assigning to a present
 * key keeps its position and replaces its value; assigning to an absent key
 * appends; `del` removes the entry and keeps the order of the rest.
 */
module AssocList {
  import opened Wrappers

  type Key = string

  /** The keys in iteration order. */
  function Keys<V>(s: seq<(Key, V)>): (ks: seq<Key>)
    ensures |ks| == |s|
    ensures forall i :: 0 <= i < |s| ==> ks[i] == s[i].0
  {
    seq(|s|, i requires 0 <= i < |s| => s[i].0)
  }

  /** No key occurs twice: the shape every Python dict has. */
  predicate DistinctKeys<V>(s: seq<(Key, V)>)
  {
    forall i, j :: 0 <= i < j < |s| ==> s[i].0 != s[j].0
  }

  /** Position of the first entry with key `k`, or `|s|` when there is none. */
  function IndexOf<V>(s: seq<(Key, V)>, k: Key): (i: nat)
    ensures i <= |s|
    ensures i < |s| ==> s[i].0 == k
    ensures forall j :: 0 <= j < i ==> s[j].0 != k
    ensures i == |s| <==> k !in Keys(s)
  {
    if |s| == 0 then 0
    else if s[0].0 == k then 0
    else
      var i := 1 + IndexOf(s[1..], k);
      assert Keys(s) == [s[0].0] + Keys(s[1..]);
      i
  }

  /** `d.get(k)`: the value bound to `k`, if any. */
  function Lookup<V>(s: seq<(Key, V)>, k: Key): (r: Option<V>)
    ensures r.None? <==> k !in Keys(s)
    ensures r.Some? ==> (k, r.value) in s
  {
    var i := IndexOf(s, k);
    if i < |s| then Some(s[i].1) else None
  }

  /** Two lists with the same keys find every key at the same position. */
  lemma IndexOfSameKeys<V>(s: seq<(Key, V)>, t: seq<(Key, V)>, k: Key)
    requires Keys(s) == Keys(t)
    ensures IndexOf(s, k) == IndexOf(t, k)
  {
  }

  /** The first position holding key `k` is where `IndexOf` finds it. */
  lemma IndexOfFirst<V>(s: seq<(Key, V)>, k: Key, i: nat)
    requires i < |s| && s[i].0 == k
    requires forall j :: 0 <= j < i ==> s[j].0 != k
    ensures IndexOf(s, k) == i
  {
  }

  /** Appending an entry with another key does not change what `k` is bound to. */
  lemma IndexOfSnoc<V>(s: seq<(Key, V)>, e: (Key, V), k: Key)
    requires e.0 != k
    ensures Lookup(s + [e], k) == Lookup(s, k)
  {
    var t := s + [e];
    var i := IndexOf(s, k);
    if i < |s| {
      assert forall j :: 0 <= j <= i ==> t[j] == s[j];
      IndexOfFirst(t, k, i);
    } else {
      assert forall j :: 0 <= j < |t| ==> t[j].0 != k by {
        forall j | 0 <= j < |t| ensures t[j].0 != k {
          if j < |s| { assert t[j] == s[j]; assert Keys(s)[j] == s[j].0; }
        }
      }
    }
  }

  /**
   * `d[k] = v`. Afterwards `k` is bound to `v`, every other key is bound as
   * before and keeps its position, an existing `k` keeps its position, and a
   * new `k` comes last.
   */
  function Put<V>(s: seq<(Key, V)>, k: Key, v: V): (r: seq<(Key, V)>)
    ensures Lookup(r, k) == Some(v)
    ensures forall k' :: k' != k ==> Lookup(r, k') == Lookup(s, k')
    ensures Keys(r) == if k in Keys(s) then Keys(s) else Keys(s) + [k]
    ensures forall j :: 0 <= j < |s| && s[j].0 != k ==> r[j] == s[j]
    ensures forall e :: e in r ==> e in s || e == (k, v)
    ensures DistinctKeys(s) ==> DistinctKeys(r)
  {
    var i := IndexOf(s, k);
    if i < |s| then
      var r := s[i := (k, v)];
      assert Keys(r) == Keys(s);
      assert forall k' :: IndexOf(r, k') == IndexOf(s, k') by {
        forall k' ensures IndexOf(r, k') == IndexOf(s, k') {
          IndexOfSameKeys(s, r, k');
        }
      }
      r
    else
      var r := s + [(k, v)];
      assert Keys(r) == Keys(s) + [k];
      assert forall k' :: k' != k ==> Lookup(r, k') == Lookup(s, k') by {
        forall k' | k' != k ensures Lookup(r, k') == Lookup(s, k') {
          IndexOfSnoc(s, (k, v), k');
        }
      }
      r
  }

  /** Binding a key to the value it already has changes nothing. */
  lemma PutExisting<V>(s: seq<(Key, V)>, k: Key, v: V)
    requires Lookup(s, k) == Some(v)
    ensures Put(s, k, v) == s
  {
    var i := IndexOf(s, k);
    assert s[i] == (k, v);
  }

  /** Overwriting an entry and then writing its old value back restores the list. */
  lemma PutRestore<V>(s: seq<(Key, V)>, k: Key, v: V, w: V)
    requires Lookup(s, k) == Some(v)
    ensures Put(Put(s, k, w), k, v) == s
  {
    var t := Put(s, k, w);
    IndexOfSameKeys(s, t, k);
    PutExisting(s, k, v);
  }

  /** The entries whose key is not `k`, in their order: the recursion behind `Remove`. */
  function Without<V>(s: seq<(Key, V)>, k: Key): seq<(Key, V)>
  {
    if |s| == 0 then []
    else if s[0].0 == k then Without(s[1..], k)
    else [s[0]] + Without(s[1..], k)
  }

  /**
   * `del d[k]` behind an `in` test: every entry with key `k` dropped, the
   * rest kept in order. Afterwards `k` is unbound, every other key is bound
   * as before, and an absent `k` changes nothing.
   */
  function Remove<V>(s: seq<(Key, V)>, k: Key): (r: seq<(Key, V)>)
    ensures k !in Keys(r)
    ensures forall k' :: k' != k ==> Lookup(r, k') == Lookup(s, k')
    ensures k !in Keys(s) ==> r == s
    ensures forall e :: e in r ==> e in s
    ensures DistinctKeys(s) ==> DistinctKeys(r)
  {
    WithoutKey(s, k);
    assert forall k' :: k' != k ==> Lookup(Without(s, k), k') == Lookup(s, k') by {
      forall k' | k' != k ensures Lookup(Without(s, k), k') == Lookup(s, k') {
        WithoutLookup(s, k, k');
      }
    }
    WithoutEntries(s, k);
    assert DistinctKeys(s) ==> DistinctKeys(Without(s, k)) by {
      if DistinctKeys(s) { WithoutDistinct(s, k); }
    }
    Without(s, k)
  }

  /** `k` is gone afterwards, and a list without it is left alone. */
  lemma {:induction false} WithoutKey<V>(s: seq<(Key, V)>, k: Key)
    ensures k !in Keys(Without(s, k))
    ensures k !in Keys(s) ==> Without(s, k) == s
    decreases |s|
  {
    if |s| > 0 {
      WithoutKey(s[1..], k);
      RemoveStepKey(s, k, Without(s[1..], k), Without(s, k));
    }
  }

  /** Every other key is bound as before. */
  lemma {:induction false} WithoutLookup<V>(s: seq<(Key, V)>, k: Key, k': Key)
    requires k' != k
    ensures Lookup(Without(s, k), k') == Lookup(s, k')
    decreases |s|
  {
    if |s| > 0 {
      WithoutLookup(s[1..], k, k');
      RemoveStepLookup(s, k, Without(s[1..], k), Without(s, k), k');
    }
  }

  /** No entry is invented. */
  lemma {:induction false} WithoutEntries<V>(s: seq<(Key, V)>, k: Key)
    ensures forall e :: e in Without(s, k) ==> e in s
    decreases |s|
  {
    if |s| > 0 {
      WithoutEntries(s[1..], k);
      assert s == [s[0]] + s[1..];
    }
  }

  /** Distinct keys stay distinct. */
  lemma {:induction false} WithoutDistinct<V>(s: seq<(Key, V)>, k: Key)
    requires DistinctKeys(s)
    ensures DistinctKeys(Without(s, k))
    decreases |s|
  {
    if |s| > 0 {
      DistinctTail(s);
      WithoutDistinct(s[1..], k);
      if s[0].0 != k {
        WithoutLookup(s[1..], k, s[0].0);
        DistinctCons(s[0], Without(s[1..], k));
      }
    }
  }

  /** A lookup in a list that starts with `e` either stops at `e` or goes on in the tail. */
  lemma LookupCons<V>(e: (Key, V), t: seq<(Key, V)>, k: Key)
    ensures Lookup([e] + t, k) == if e.0 == k then Some(e.1) else Lookup(t, k)
    ensures Keys([e] + t) == [e.0] + Keys(t)
  {
    var s := [e] + t;
    assert s[0] == e && s[1..] == t;
    KeysCons(s);
    if e.0 != k {
      var i := IndexOf(t, k);
      assert IndexOf(s, k) == 1 + i;
      if i < |t| {
        assert s[i + 1] == t[i];
      }
    }
  }

  /** One step of `Remove` for lookups: the tail's result binds other keys as the tail does. */
  lemma RemoveStepLookup<V>(s: seq<(Key, V)>, k: Key, rest: seq<(Key, V)>, r: seq<(Key, V)>, k': Key)
    requires |s| > 0 && k' != k
    requires Lookup(rest, k') == Lookup(s[1..], k')
    requires r == if s[0].0 == k then rest else [s[0]] + rest
    ensures Lookup(r, k') == Lookup(s, k')
  {
    assert s == [s[0]] + s[1..];
    LookupCons(s[0], s[1..], k');
    if s[0].0 != k {
      LookupCons(s[0], rest, k');
    }
  }

  /** An entry whose key the list lacks can go in front without repeating a key. */
  lemma DistinctCons<V>(e: (Key, V), t: seq<(Key, V)>)
    requires DistinctKeys(t) && e.0 !in Keys(t)
    ensures DistinctKeys([e] + t)
  {
    var s := [e] + t;
    forall i, j | 0 <= i < j < |s| ensures s[i].0 != s[j].0 {
      assert s[j] == t[j - 1];
      if i == 0 { assert Keys(t)[j - 1] == t[j - 1].0; } else { assert s[i] == t[i - 1]; }
    }
  }

  /** One step of `Remove` for the key itself. */
  lemma RemoveStepKey<V>(s: seq<(Key, V)>, k: Key, rest: seq<(Key, V)>, r: seq<(Key, V)>)
    requires |s| > 0
    requires k !in Keys(rest)
    requires k !in Keys(s[1..]) ==> rest == s[1..]
    requires r == if s[0].0 == k then rest else [s[0]] + rest
    ensures k !in Keys(r)
    ensures k !in Keys(s) ==> r == s
  {
    assert s == [s[0]] + s[1..];
    LookupCons(s[0], s[1..], k);
    if s[0].0 != k {
      LookupCons(s[0], rest, k);
    }
  }

  /**
   * With distinct keys, removing a present key cuts exactly its one entry out
   * of the list: the entries before and after it stay, in their order.
   */
  lemma {:induction false} RemoveCutsEntry<V>(s: seq<(Key, V)>, k: Key)
    requires DistinctKeys(s)
    requires k in Keys(s)
    ensures Remove(s, k) == s[..IndexOf(s, k)] + s[IndexOf(s, k) + 1..]
    ensures |Remove(s, k)| == |s| - 1
  {
    WithoutCutsEntry(s, k);
    var i := IndexOf(s, k);
    assert |s[..i] + s[i + 1..]| == |s| - 1;
  }

  /** `RemoveCutsEntry` for the recursion behind `Remove`, proved by induction on the list. */
  lemma {:induction false} WithoutCutsEntry<V>(s: seq<(Key, V)>, k: Key)
    requires DistinctKeys(s)
    requires k in Keys(s)
    ensures Without(s, k) == s[..IndexOf(s, k)] + s[IndexOf(s, k) + 1..]
    decreases |s|, 1
  {
    DistinctTail(s);
    if s[0].0 == k {
      WithoutHead(s, k);
    } else {
      KeysCons(s);
      WithoutCutsLater(s, k);
    }
  }

  /** The step of `WithoutCutsEntry` when the entry to cut is not the head. */
  lemma {:induction false} WithoutCutsLater<V>(s: seq<(Key, V)>, k: Key)
    requires |s| > 0 && s[0].0 != k
    requires DistinctKeys(s[1..]) && k in Keys(s[1..])
    ensures Without(s, k) == s[..IndexOf(s, k)] + s[IndexOf(s, k) + 1..]
    decreases |s|, 0
  {
    var t := s[1..];
    WithoutCons(s, k);
    WithoutCutsEntry(t, k);
    CutCons(s, IndexOf(t, k), IndexOf(s, k));
  }

  /** Removing the head's key from a list with distinct keys drops just the head. */
  lemma WithoutHead<V>(s: seq<(Key, V)>, k: Key)
    requires |s| > 0 && s[0].0 == k
    requires k !in Keys(s[1..])
    ensures IndexOf(s, k) == 0
    ensures Without(s, k) == s[..0] + s[1..]
  {
    WithoutKey(s[1..], k);
    assert s[..0] + s[1..] == s[1..];
  }

  /** Removing another key keeps the head and removes from the tail. */
  lemma WithoutCons<V>(s: seq<(Key, V)>, k: Key)
    requires |s| > 0 && s[0].0 != k
    ensures IndexOf(s, k) == 1 + IndexOf(s[1..], k)
    ensures Without(s, k) == [s[0]] + Without(s[1..], k)
  {
  }

  lemma KeysCons<V>(s: seq<(Key, V)>)
    requires |s| > 0
    ensures Keys(s) == [s[0].0] + Keys(s[1..])
  {
  }

  /** The tail of a list with distinct keys has distinct keys and lacks the head's key. */
  lemma DistinctTail<V>(s: seq<(Key, V)>)
    requires |s| > 0 && DistinctKeys(s)
    ensures DistinctKeys(s[1..]) && s[0].0 !in Keys(s[1..])
  {
  }

  /** Cutting entry `i` out of the tail is cutting entry `i + 1` out of the whole. */
  lemma CutCons<V>(s: seq<(Key, V)>, i: nat, j: nat)
    requires j == i + 1 && j < |s|
    ensures [s[0]] + (s[1..][..i] + s[1..][i + 1..]) == s[..j] + s[j + 1..]
  {
    assert s[..j] == [s[0]] + s[1..][..i];
    assert s[j + 1..] == s[1..][i + 1..];
  }
}

=== FILE: interval.dfy ===
/**
 * A corrected Pomodoro timer: a work-then-break timer, which is what
 * `run_pomodoro` evidently aims for. It runs a work interval of `work * 60`
 * seconds, rings once, runs a break of `brk * 60` seconds, rings again and
 * goes idle. There is a single countdown, which stop cancels; the phase,
 * not a comparison of the second counter with the work time, decides what
 * follows an alarm; and zero durations are refused when they are entered.
 * `TimerAgreement` relates this timer to `Pomodoro`.
 */
module IntervalTimer {
  import opened Wrappers
  import Text

  datatype Phase = Idle | Working | OnBreak

  datatype Interval = Interval(phase: Phase, remaining: nat, work: nat, brk: nat, alarms: nat)

  /** Positive durations, and a countdown exactly while a phase is running. */
  predicate Valid(t: Interval)
  {
    t.work > 0 && t.brk > 0 && (t.phase == Idle <==> t.remaining == 0)
  }

  const Initial: Interval := Interval(Idle, 0, 25, 5, 0)

  /** Pressing start while idle begins a full work interval; otherwise it does nothing. */
  function Start(t: Interval): (r: Interval)
    ensures t.phase == Idle ==> r.phase == Working && r.remaining == t.work * 60
    ensures t.phase != Idle ==> r == t
    ensures r.work == t.work && r.brk == t.brk && r.alarms == t.alarms
    ensures Valid(t) ==> Valid(r)
  {
    if t.phase == Idle then t.(phase := Working, remaining := t.work * 60) else t
  }

  /** Pressing stop cancels the countdown. */
  function Stop(t: Interval): (r: Interval)
    ensures r.phase == Idle && r.remaining == 0
    ensures r.work == t.work && r.brk == t.brk && r.alarms == t.alarms
    ensures Valid(t) ==> Valid(r)
  {
    t.(phase := Idle, remaining := 0)
  }

  /**
   * One second. A countdown above one second goes down by one; the last
   * second rings the alarm and moves from work to break, or from break to
   * idle.
   */
  function Tick(t: Interval): (r: Interval)
    ensures t.phase == Idle ==> r == t
    ensures t.phase != Idle && t.remaining > 1 ==> r == t.(remaining := t.remaining - 1)
    ensures t.phase != Idle && t.remaining <= 1 ==> r.alarms == t.alarms + 1
    ensures t.phase == Working && t.remaining <= 1 ==> r.phase == OnBreak && r.remaining == t.brk * 60
    ensures t.phase == OnBreak && t.remaining <= 1 ==> r.phase == Idle
    ensures r.work == t.work && r.brk == t.brk
    ensures Valid(t) ==> Valid(r)
  {
    if t.phase == Idle then t
    else if t.remaining > 1 then t.(remaining := t.remaining - 1)
    else
      var rung := t.(alarms := t.alarms + 1);
      if t.phase == Working then rung.(phase := OnBreak, remaining := t.brk * 60)
      else rung.(phase := Idle, remaining := 0)
  }

  function Ticks(t: Interval, n: nat): Interval
    decreases n
  {
    if n == 0 then t else Ticks(Tick(t), n - 1)
  }

  /**
   * `a + b` seconds are `a` seconds and then `b` more. `Pomodoro.TicksSplit`
   * is the same fact about the timer as written, whose `Tick` is a
   * different function on a different state.
   */
  lemma {:induction false} TicksSplit(t: Interval, a: nat, b: nat)
    ensures Ticks(t, a + b) == Ticks(Ticks(t, a), b)
    decreases a
  {
    if a > 0 {
      TicksSplit(Tick(t), a - 1, b);
    }
  }

  /** Ticks keep the timer valid. */
  lemma {:induction false} TicksValid(t: Interval, n: nat)
    requires Valid(t)
    ensures Valid(Ticks(t, n))
    decreases n
  {
    if n > 0 {
      TicksValid(Tick(t), n - 1);
    }
  }

  /** Fewer ticks than the seconds left only count down: same phase, no alarm. */
  lemma {:induction false} TicksCountdown(t: Interval, n: nat)
    requires t.phase != Idle && n < t.remaining
    ensures Ticks(t, n) == t.(remaining := t.remaining - n)
    decreases n
  {
    if n > 0 {
      TicksCountdown(Tick(t), n - 1);
    }
  }

  /** Exactly as many ticks as seconds left end the phase with one alarm. */
  lemma PhaseEnds(t: Interval)
    requires Valid(t) && t.phase != Idle
    ensures Ticks(t, t.remaining).alarms == t.alarms + 1
    ensures t.phase == Working ==> Ticks(t, t.remaining) == t.(phase := OnBreak, remaining := t.brk * 60, alarms := t.alarms + 1)
    ensures t.phase == OnBreak ==> Ticks(t, t.remaining) == t.(phase := Idle, remaining := 0, alarms := t.alarms + 1)
  {
    var k := t.remaining;
    TicksCountdown(t, k - 1);
    TicksSplit(t, k - 1, 1);
  }

  /**
   * From idle, `work * 60` ticks after start the work alarm has rung once and
   * the break is counting down in full; `brk * 60` ticks later the break
   * alarm has rung and the timer is idle again with its settings unchanged.
   */
  lemma FullCycle(t: Interval)
    requires Valid(t) && t.phase == Idle
    ensures Ticks(Start(t), t.work * 60) == t.(phase := OnBreak, remaining := t.brk * 60, alarms := t.alarms + 1)
    ensures Ticks(Start(t), t.work * 60 + t.brk * 60) == t.(alarms := t.alarms + 2)
  {
    var w, b := t.work * 60, t.brk * 60;
    var s := Start(t);
    PhaseEnds(s);
    var mid := Ticks(s, w);
    PhaseEnds(mid);
    TicksSplit(s, w, b);
  }

  /** During the work interval no alarm rings before its last second. */
  lemma WorkQuiet(t: Interval, n: nat)
    requires Valid(t) && t.phase == Idle && n < t.work * 60
    ensures Ticks(Start(t), n).phase == Working && Ticks(Start(t), n).alarms == t.alarms
    ensures Ticks(Start(t), n).remaining == t.work * 60 - n
  {
    TicksCountdown(Start(t), n);
  }

  /**
   * Stopping and restarting at any moment gives a full work interval: the
   * restarted timer is the one started from idle, whatever was counting.
   */
  lemma RestartRunsFull(t: Interval)
    requires Valid(t)
    ensures Start(Stop(t)) == t.(phase := Working, remaining := t.work * 60)
    ensures Ticks(Start(Stop(t)), t.work * 60).alarms == t.alarms + 1
    ensures forall n :: 0 <= n < t.work * 60 ==> Ticks(Start(Stop(t)), n).alarms == t.alarms
  {
    var s := Start(Stop(t));
    PhaseEnds(s);
    forall n | 0 <= n < t.work * 60
      ensures Ticks(s, n).alarms == t.alarms
    {
      TicksCountdown(s, n);
    }
  }

  datatype ConfigError = InvalidInput

  /** A stripped entry of digits whose value is at least one minute. */
  predicate PositiveMinutes(entry: string)
  {
    Text.IsDigits(Text.Strip(entry)) && Text.DigitsValue(Text.Strip(entry)) > 0
  }

  /**
   * The settings dialog, refusing zero: both entries must be digit strings
   * with a positive value; then both durations change and nothing else.
   */
  function Configure(t: Interval, workEntry: string, breakEntry: string): (r: Result<Interval, ConfigError>)
    ensures r.Success? <==> PositiveMinutes(workEntry) && PositiveMinutes(breakEntry)
    ensures r.Success? ==> r.value.work == Text.DigitsValue(Text.Strip(workEntry))
    ensures r.Success? ==> r.value.brk == Text.DigitsValue(Text.Strip(breakEntry))
    ensures r.Success? ==> r.value.phase == t.phase && r.value.remaining == t.remaining && r.value.alarms == t.alarms
    ensures r.Success? && Valid(t) ==> Valid(r.value)
  {
    if PositiveMinutes(workEntry) && PositiveMinutes(breakEntry) then
      Success(t.(work := Text.DigitsValue(Text.Strip(workEntry)), brk := Text.DigitsValue(Text.Strip(breakEntry))))
    else Failure(InvalidInput)
  }

  /** A printed number is read back as itself, and it is a valid duration exactly when positive. */
  lemma PrintedMinutes(n: nat)
    ensures Text.Strip(Text.NatToString(n)) == Text.NatToString(n)
    ensures PositiveMinutes(Text.NatToString(n)) <==> n > 0
  {
    Text.StripNumber(n);
  }

  /** Every positive number of minutes is accepted; zero, for either duration, is refused. */
  lemma ConfigureNumbers(t: Interval, w: nat, b: nat)
    ensures Configure(t, Text.NatToString(w), Text.NatToString(b)).Success? <==> w > 0 && b > 0
    ensures w > 0 && b > 0 ==> Configure(t, Text.NatToString(w), Text.NatToString(b)) == Success(t.(work := w, brk := b))
  {
    PrintedMinutes(w);
    PrintedMinutes(b);
  }
}

=== FILE: pomodoro.dfy ===
/**
 * The Pomodoro countdown as main.py runs it. `run_pomodoro(seconds)` shows
 * the time left and re-arms itself with `after(1000, run_pomodoro,
 * seconds - 1)`; at zero it rings and either starts the break (only when the
 * zero it reached equals `work_minutes * 60`) or stops. `stop_pomodoro`
 * clears the running flag but does not cancel the callback already armed,
 * so callbacks are kept here as a queue of pending arguments, and one
 * `Tick` is one second of the event loop: every callback armed during the
 * previous second fires, oldest first.
 */
module Pomodoro {
  import Text
  import Seqs

  datatype Timer = Timer(
    running: bool,       // timer_running
    work: nat,           // work_minutes
    brk: nat,            // break_minutes
    pending: seq<nat>,   // arguments of the armed run_pomodoro callbacks, oldest first
    shown: nat,          // seconds on timer_label, which reads Clock(shown)
    alarms: nat,         // play_alarm calls so far
    crashed: bool)       // a RecursionError escaped run_pomodoro

  /** The state right after the window opens: 25 and 5 minutes, nothing armed. */
  const Initial: Timer := Timer(false, 25, 5, [], 0, 0, false)

  /** `'{:02d}:{:02d}'.format(*divmod(seconds, 60))`. */
  function Clock(s: nat): string
  {
    Text.Pad2(s / 60) + ":" + Text.Pad2(s % 60)
  }

  /** The label after `stop_pomodoro` and at startup is the clock of zero seconds. */
  lemma ClockZero()
    ensures Clock(0) == "00:00"
  {
    assert Text.NatToString(0) == "0";
  }

  /**
   * Reading the minutes and seconds back from the label gives the number
   * of seconds shown; below 100 minutes the label is five characters.
   */
  lemma ClockReadsBack(s: nat)
    ensures var r := Clock(s);
      && |r| >= 5 && r[|r| - 3] == ':'
      && Text.IsDigits(r[..|r| - 3]) && Text.IsDigits(r[|r| - 2..])
      && Text.DigitsValue(r[|r| - 2..]) < 60
      && Text.DigitsValue(r[..|r| - 3]) * 60 + Text.DigitsValue(r[|r| - 2..]) == s
      && (s < 6000 ==> |r| == 5)
  {
    var mins, secs := Text.Pad2(s / 60), Text.Pad2(s % 60);
    var r := mins + ":" + secs;
    assert r[..|r| - 3] == mins && r[|r| - 2..] == secs;
  }

  /** `stop_pomodoro`: clears the flag and resets the label to "00:00"; armed callbacks stay armed. */
  function Stop(t: Timer): (r: Timer)
    ensures !r.running && r.shown == 0
    ensures r.pending == t.pending && r.alarms == t.alarms && r.work == t.work && r.brk == t.brk
  {
    t.(running := false, shown := 0)
  }

  /** One call `run_pomodoro(s)`, including the call it makes for the break when `s` equals the work seconds. */
  function Run(t: Timer, s: nat): Timer
    decreases if s > 0 then 0 else 1
  {
    if !t.running then t
    else if s > 0 then t.(shown := s, pending := t.pending + [s - 1])
    else
      var rung := t.(alarms := t.alarms + 1);
      if s == t.work * 60 then
        // with both durations zero the call would recurse on itself without end
        if t.brk * 60 > 0 then Run(rung, t.brk * 60) else rung.(crashed := true)
      else Stop(rung)
  }

  /**
   * What one call `run_pomodoro(s)` does. A stopped timer ignores the call.
   * With time left the call shows it and arms one callback a second lower.
   * At zero it rings once and then starts the break when zero is the work
   * time and stops otherwise. Armed callbacks are never cancelled and the
   * settings never change.
   */
  lemma RunSteps(t: Timer, s: nat)
    ensures !t.running ==> Run(t, s) == t
    ensures t.running && s > 0 ==> SameButCountdown(Run(t, s), t) && Run(t, s).pending == t.pending + [s - 1] && Run(t, s).shown == s
    ensures t.running && s == 0 ==> Run(t, s).alarms == t.alarms + 1
    ensures t.running && s == 0 && t.work != 0 ==> !Run(t, s).running && Run(t, s).pending == t.pending && Run(t, s).shown == 0
    ensures t.running && s == 0 && t.work == 0 && t.brk > 0 ==>
              Run(t, s).running && Run(t, s).crashed == t.crashed && Run(t, s).pending == t.pending + [t.brk * 60 - 1]
    ensures t.running && s == 0 && t.work == 0 && t.brk == 0 ==> Run(t, s).crashed
    ensures Run(t, s).work == t.work && Run(t, s).brk == t.brk
    ensures |t.pending| <= |Run(t, s).pending| <= |t.pending| + 1 && Run(t, s).pending[..|t.pending|] == t.pending
    decreases if s > 0 then 0 else 1
  {
    if t.running && s == 0 && s == t.work * 60 && t.brk * 60 > 0 {
      var rung := t.(alarms := t.alarms + 1);
      RunSteps(rung, t.brk * 60);
      assert Run(rung, t.brk * 60).pending[..|t.pending|] == t.pending;
    }
  }

  /** `start_pomodoro`: a press while the timer runs does nothing. */
  function Start(t: Timer): (r: Timer)
    ensures t.running ==> r == t
    ensures r.work == t.work && r.brk == t.brk
  {
    if !t.running then Run(t.(running := true), t.work * 60) else t
  }

  /** The armed callbacks `due` fire one after the other. */
  function Fire(t: Timer, due: seq<nat>): Timer
    decreases |due|
  {
    if |due| == 0 then t else Fire(Run(t, due[0]), due[1..])
  }

  /** One second of the event loop. */
  function Tick(t: Timer): Timer
  {
    Fire(t.(pending := []), t.pending)
  }

  function Ticks(t: Timer, n: nat): Timer
    decreases n
  {
    if n == 0 then t else Ticks(Tick(t), n - 1)
  }

  /** Each pending argument lowered by `n`. */
  function Minus(ps: seq<nat>, n: nat): (r: seq<nat>)
    requires forall i :: 0 <= i < |ps| ==> ps[i] >= n
    ensures |r| == |ps| && forall i :: 0 <= i < |ps| ==> r[i] + n == ps[i]
  {
    seq(|ps|, i requires 0 <= i < |ps| => ps[i] - n)
  }

  lemma MinusCons(ps: seq<nat>, n: nat)
    requires |ps| > 0 && forall i :: 0 <= i < |ps| ==> ps[i] >= n
    ensures Minus(ps, n) == [ps[0] - n] + Minus(ps[1..], n)
  {
    var a, b := Minus(ps, n), [ps[0] - n] + Minus(ps[1..], n);
    assert |a| == |b|;
    forall i | 0 <= i < |a| ensures a[i] == b[i] {
      if i > 0 { assert b[i] == Minus(ps[1..], n)[i - 1]; }
    }
  }

  /** Callbacks that fire while the flag is down do nothing at all. */
  lemma {:induction false} FireStopped(t: Timer, due: seq<nat>)
    requires !t.running
    ensures Fire(t, due) == t
    decreases |due|
  {
    if |due| > 0 {
      FireStopped(t, due[1..]);
    }
  }

  /**
   * When callbacks `due` fire, each rings at most once and arms at most one
   * more callback; none already armed is cancelled and the settings stay.
   */
  lemma {:induction false} FireBounds(t: Timer, due: seq<nat>)
    ensures Fire(t, due).work == t.work && Fire(t, due).brk == t.brk
    ensures t.alarms <= Fire(t, due).alarms <= t.alarms + |due|
    ensures |t.pending| <= |Fire(t, due).pending| <= |t.pending| + |due|
    ensures Fire(t, due).pending[..|t.pending|] == t.pending
    decreases |due|
  {
    if |due| > 0 {
      var t1 := Run(t, due[0]);
      RunSteps(t, due[0]);
      FireBounds(t1, due[1..]);
      var r := Fire(t1, due[1..]);
      assert r.pending[..|t.pending|] == r.pending[..|t1.pending|][..|t.pending|];
    }
  }

  /**
   * One second of the event loop: what is armed afterwards was armed during
   * this second, at most one callback per callback that fired, and each of
   * those rang at most once. A stopped timer only lets its callbacks expire.
   */
  lemma TickBounds(t: Timer)
    ensures Tick(t).work == t.work && Tick(t).brk == t.brk
    ensures t.alarms <= Tick(t).alarms <= t.alarms + |t.pending|
    ensures |Tick(t).pending| <= |t.pending|
    ensures !t.running ==> Tick(t) == t.(pending := [])
  {
    FireBounds(t.(pending := []), t.pending);
    if !t.running {
      FireStopped(t.(pending := []), t.pending);
    }
  }

  /**
   * Over `n` seconds the settings stay, the alarm count only grows and the
   * number of armed callbacks never grows; a stopped timer rings no more and
   * is left with nothing armed.
   */
  lemma {:induction false} TicksBounds(t: Timer, n: nat)
    ensures Ticks(t, n).work == t.work && Ticks(t, n).brk == t.brk
    ensures Ticks(t, n).alarms >= t.alarms && |Ticks(t, n).pending| <= |t.pending|
    ensures !t.running && n > 0 ==> Ticks(t, n) == t.(pending := [])
    decreases n
  {
    if n > 0 {
      TickBounds(t);
      TicksBounds(Tick(t), n - 1);
    }
  }

  /** Two states that differ at most in what is armed and what is shown. */
  predicate SameButCountdown(a: Timer, b: Timer)
  {
    a.running == b.running && a.work == b.work && a.brk == b.brk && a.alarms == b.alarms && a.crashed == b.crashed
  }

  /** Callbacks with time left each show it and re-arm themselves one second lower. */
  lemma {:induction false} FireCounting(t: Timer, due: seq<nat>)
    requires t.running
    requires forall i :: 0 <= i < |due| ==> due[i] > 0
    ensures SameButCountdown(Fire(t, due), t)
    ensures Fire(t, due).pending == t.pending + Minus(due, 1)
    decreases |due|
  {
    if |due| > 0 {
      var t1 := Run(t, due[0]);
      assert t1 == t.(shown := due[0], pending := t.pending + [due[0] - 1]);
      var rest := due[1..];
      assert forall i :: 0 <= i < |rest| ==> rest[i] == due[i + 1];
      FireCounting(t1, rest);
      MinusCons(due, 1);
      Seqs.ConcatAssoc(t.pending, [due[0] - 1], Minus(rest, 1));
    }
  }

  /**
   * While the timer runs and every armed countdown has at least `n` seconds
   * left, `n` ticks lower each of them by exactly `n`; no alarm rings and
   * nothing else changes but the label.
   */
  lemma {:induction false} TicksCounting(t: Timer, n: nat)
    requires t.running
    requires forall i :: 0 <= i < |t.pending| ==> t.pending[i] >= n
    ensures SameButCountdown(Ticks(t, n), t)
    ensures Ticks(t, n).pending == Minus(t.pending, n)
    decreases n
  {
    if n > 0 {
      var t1 := Tick(t);
      FireCounting(t.(pending := []), t.pending);
      assert [] + Minus(t.pending, 1) == Minus(t.pending, 1);
      MinusStep(t.pending, n);
      TicksCounting(t1, n - 1);
    }
  }

  /** Lowering by one and then by `n - 1` is lowering by `n`. */
  lemma MinusStep(ps: seq<nat>, n: nat)
    requires n > 0 && forall i :: 0 <= i < |ps| ==> ps[i] >= n
    ensures forall i :: 0 <= i < |ps| ==> Minus(ps, 1)[i] >= n - 1
    ensures Minus(Minus(ps, 1), n - 1) == Minus(ps, n)
  {
    var a := Minus(Minus(ps, 1), n - 1);
    var b := Minus(ps, n);
    assert |a| == |b|;
    forall i | 0 <= i < |a|
      ensures a[i] == b[i]
    {
    }
  }

  /** A tick with one callback armed is that one call. */
  lemma FireOne(t: Timer, s: nat)
    ensures Fire(t, [s]) == Run(t, s)
  {
    assert [s][1..] == [];
  }

  /** While running with `s > 0` seconds armed, a tick shows `s` and re-arms at exactly `s - 1`. */
  lemma TickCountsDown(t: Timer, s: nat)
    requires t.running && t.pending == [s] && s > 0
    ensures Tick(t) == t.(pending := [s - 1], shown := s)
  {
    FireOne(t.(pending := []), s);
  }

  /** After `stop_pomodoro`, ticks only let the armed callbacks expire: nothing is shown or rung. */
  lemma {:induction false} TicksAfterStop(t: Timer, n: nat)
    requires n > 0
    ensures Ticks(Stop(t), n) == Stop(t).(pending := [])
    decreases n
  {
    FireStopped(Stop(t).(pending := []), Stop(t).pending);
    if n > 1 {
      assert Stop(t).(pending := []) == Stop(t.(pending := []));
      TicksAfterStop(t.(pending := []), n - 1);
    }
  }

  /**
   * Starting an idle timer with a positive work time: for `n` ticks short of
   * `work * 60` it keeps counting with `work * 60 - 1 - n` armed, and no alarm.
   */
  lemma WorkCountdown(t: Timer, n: nat)
    requires !t.running && t.pending == [] && t.work > 0
    requires n < t.work * 60
    ensures SameButCountdown(Ticks(Start(t), n), t.(running := true))
    ensures Ticks(Start(t), n).pending == [t.work * 60 - 1 - n]
  {
    var w := t.work * 60;
    StartFromRest(t);
    var u := Start(t);
    assert forall i :: 0 <= i < |u.pending| ==> u.pending[i] >= n;
    TicksCounting(u, n);
    MinusOne(w - 1, n);
  }

  /**
   * A press while stopped sets the flag, shows the whole work time and arms
   * one callback a second below it, behind the callbacks a stop left armed.
   */
  lemma StartFromRest(t: Timer)
    requires !t.running && t.work > 0
    ensures Start(t) == t.(running := true, shown := t.work * 60, pending := t.pending + [t.work * 60 - 1])
  {
  }

  lemma MinusOne(x: nat, n: nat)
    requires x >= n
    ensures Minus([x], n) == [x - n]
  {
  }

  /** The last second of a work interval rings once and stops: zero is not `work * 60`. */
  lemma LastWorkSecond(v: Timer)
    requires v.running && v.pending == [0] && v.work > 0
    ensures Tick(v) == v.(running := false, pending := [], shown := 0, alarms := v.alarms + 1)
  {
    FireOne(v.(pending := []), 0);
  }

  /** The `work * 60`-th tick after start rings and stops the timer. */
  lemma WorkEndTick(t: Timer)
    requires !t.running && t.pending == [] && t.work > 0
    ensures Ticks(Start(t), t.work * 60) == t.(shown := 0, alarms := t.alarms + 1)
  {
    var w := t.work * 60;
    WorkCountdown(t, w - 1);
    var v := Ticks(Start(t), w - 1);
    var stopped := t.(shown := 0, alarms := t.alarms + 1);
    LastWorkSecond(v);
    assert v.(running := false, pending := [], shown := 0, alarms := v.alarms + 1) == stopped;
    assert Ticks(v, 1) == Tick(v);
    TicksSplit(Start(t), w - 1, 1);
    assert Ticks(Start(t), w) == Ticks(v, 1);
  }

  /**
   * ... and at the `work * 60`-th tick it rings once and stops, because the
   * zero it reached is not `work * 60`: the break countdown is never entered,
   * and no later tick changes anything.
   */
  lemma WorkEndsWithoutBreak(t: Timer, n: nat)
    requires !t.running && t.pending == [] && t.work > 0
    requires n >= t.work * 60
    ensures Ticks(Start(t), n) == t.(shown := 0, alarms := t.alarms + 1)
  {
    var w := t.work * 60;
    var stopped := t.(shown := 0, alarms := t.alarms + 1);
    WorkEndTick(t);
    if n == w {
      assert Ticks(Start(t), n) == stopped;
    } else {
      TicksSplit(Start(t), w, n - w);
      assert stopped == Stop(stopped) && stopped == Stop(stopped).(pending := []);
      TicksAfterStop(stopped, n - w);
      assert Ticks(Start(t), n) == Ticks(stopped, n - w) == stopped;
    }
  }

  /**
   * `a + b` seconds are `a` seconds and then `b` more: the same fact as
   * `IntervalTimer.TicksSplit`, for this timer's own `Tick`.
   */
  lemma {:induction false} TicksSplit(t: Timer, a: nat, b: nat)
    ensures Ticks(t, a + b) == Ticks(Ticks(t, a), b)
    decreases a
  {
    if a > 0 {
      TicksSplit(Tick(t), a - 1, b);
    }
  }

  /**
   * Stopping and restarting before the armed callback fires leaves two
   * countdowns alive. The older one reaches zero first, rings and stops the
   * timer: the restarted work interval ends after `p + 1` ticks instead of
   * `work * 60`.
   */
  lemma RestartEndsEarly(t: Timer, p: nat)
    requires t.running && t.pending == [p] && t.work > 0
    requires p + 1 < t.work * 60
    ensures Start(Stop(t)).pending == [p, t.work * 60 - 1]
    ensures forall n :: 0 <= n <= p ==> Ticks(Start(Stop(t)), n).running
    ensures !Ticks(Start(Stop(t)), p + 1).running
    ensures Ticks(Start(Stop(t)), p + 1).alarms == t.alarms + 1
  {
    var u := Start(Stop(t));
    var w := t.work * 60;
    forall n | 0 <= n <= p ensures Ticks(u, n).running {
      TicksCounting(u, n);
    }
    TicksCounting(u, p);
    var v := Ticks(u, p);
    assert v.pending == [0, w - 1 - p];
    StaleZeroStops(v);
    TicksSplit(u, p, 1);
    assert Ticks(u, p + 1) == Ticks(v, 1) == Tick(v);
  }

  /** A zero that fires first, while the timer runs a positive work time, rings and stops it for the second too. */
  lemma StaleZeroStops(v: Timer)
    requires v.running && |v.pending| == 2 && v.pending[0] == 0 && v.work > 0
    ensures !Tick(v).running && Tick(v).alarms == v.alarms + 1
  {
    var v1 := Run(v.(pending := []), 0);
    assert !v1.running && v1.alarms == v.alarms + 1;
    assert Tick(v) == Fire(v1, v.pending[1..]);
    FireStopped(v1, v.pending[1..]);
  }

  /**
   * With a work time of zero the alarm rings at once and the break starts;
   * every break then ends on a zero equal to `0 * 60`, so another break
   * starts, without end.
   */
  lemma ZeroWorkRepeatsBreak(t: Timer)
    requires t.running && t.pending == [0] && t.work == 0 && t.brk > 0
    ensures Tick(t).running && Tick(t).pending == [t.brk * 60 - 1] && Tick(t).alarms == t.alarms + 1
  {
    FireOne(t.(pending := []), 0);
  }

  /** With both times zero, starting recurses until Python gives up with a RecursionError. */
  lemma ZeroTimesCrash(t: Timer)
    requires !t.running && t.work == 0 && t.brk == 0
    ensures Start(t).crashed
  {
  }

  /** How the `save_custom_time` callback ends. */
  datatype SaveOutcome =
    | Saved(timer: Timer)    // both times set and the dialog closed
    | Refused                // the "Invalid Input" message box; nothing changes
    | Raised(timer: Timer)   // `int()` raised a ValueError out of the callback; what was set before stays set

  /** An entry `int()` converts: a digit string within CPython's digit limit. */
  predicate Convertible(s: string)
  {
    |s| <= Text.IntMaxStrDigits
  }

  /**
   * `customize_timer.save_custom_time`: both stripped inputs must be
   * non-empty strings of digits ("0" and leading zeros included), or the
   * message box appears and nothing changes. Then the work time is set from
   * the first and the break time from the second, in that order; an entry
   * longer than `int()` converts raises, and a work time already set stays
   * set.
   */
  function SaveCustomTime(t: Timer, workEntry: string, breakEntry: string): (r: SaveOutcome)
    ensures r.Refused? <==> !(Text.IsDigits(Text.Strip(workEntry)) && Text.IsDigits(Text.Strip(breakEntry)))
    ensures r.Saved? <==> Text.IsDigits(Text.Strip(workEntry)) && Text.IsDigits(Text.Strip(breakEntry))
                          && Convertible(Text.Strip(workEntry)) && Convertible(Text.Strip(breakEntry))
    ensures r.Saved? ==> r.timer == t.(work := Text.DigitsValue(Text.Strip(workEntry)),
                                       brk := Text.DigitsValue(Text.Strip(breakEntry)))
    ensures r.Raised? && !Convertible(Text.Strip(workEntry)) ==> r.timer == t
    ensures r.Raised? && Convertible(Text.Strip(workEntry)) ==>
              !Convertible(Text.Strip(breakEntry)) && r.timer == t.(work := Text.DigitsValue(Text.Strip(workEntry)))
  {
    var w, b := Text.Strip(workEntry), Text.Strip(breakEntry);
    if !(Text.IsDigits(w) && Text.IsDigits(b)) then Refused
    else if !Convertible(w) then Raised(t)
    else
      var u := t.(work := Text.DigitsValue(w));
      if !Convertible(b) then Raised(u) else Saved(u.(brk := Text.DigitsValue(b)))
  }

  /**
   * Saving the dialog as it opens, pre-filled with `str()` of both times,
   * changes nothing: it is saved when both numbers print within the digit
   * limit, and otherwise the ValueError leaves the times as they were.
   */
  lemma SaveUneditedDialog(t: Timer)
    ensures !SaveCustomTime(t, Text.NatToString(t.work), Text.NatToString(t.brk)).Refused?
    ensures SaveCustomTime(t, Text.NatToString(t.work), Text.NatToString(t.brk)).timer == t
    ensures SaveCustomTime(t, Text.NatToString(t.work), Text.NatToString(t.brk)).Saved? <==>
              Convertible(Text.NatToString(t.work)) && Convertible(Text.NatToString(t.brk))
  {
    Text.StripNumber(t.work);
    Text.StripNumber(t.brk);
  }

  /**
   * Any printed number, zero included, is accepted and read back as itself
   * when both print within the digit limit. A work time beyond it raises
   * before anything is set; a break time beyond it raises after the work
   * time has been set.
   */
  lemma SaveNumbers(t: Timer, w: nat, b: nat)
    ensures Convertible(Text.NatToString(w)) && Convertible(Text.NatToString(b)) ==>
              SaveCustomTime(t, Text.NatToString(w), Text.NatToString(b)) == Saved(t.(work := w, brk := b))
    ensures !Convertible(Text.NatToString(w)) ==>
              SaveCustomTime(t, Text.NatToString(w), Text.NatToString(b)) == Raised(t)
    ensures Convertible(Text.NatToString(w)) && !Convertible(Text.NatToString(b)) ==>
              SaveCustomTime(t, Text.NatToString(w), Text.NatToString(b)) == Raised(t.(work := w))
  {
    Text.StripNumber(w);
    Text.StripNumber(b);
  }
}

=== FILE: registry.dfy ===
/**
 * The registry of named lists (`self.task_lists` of main.py, reduced to the
 * task dict each entry carries) and the name of the list whose tab is
 * selected. Lists are created under a fresh "<base> <k>" name, renamed
 * subject to validation, deleted after confirmation, and edited through the
 * task-tree edits of `Tasks`.
 */
module Registry {
  import opened Wrappers
  import Text
  import opened Tasks
  import opened AssocList

  datatype Registry = Registry(lists: map<string, TaskMap>, current: string)

  datatype Error =
    | InvalidName   // the "Invalid Name" message box: empty or already used
    | NoSuchList    // the KeyError a stale list name raises inside the callback

  /** Every list's task tree is well formed. */
  predicate Valid(reg: Registry)
  {
    forall name :: name in reg.lists ==> WellFormed(reg.lists[name])
  }

  /** `f"{base_name} {count}"`. */
  function ListName(base: string, count: nat): string
  {
    base + " " + Text.NatToString(count)
  }

  /**
   * A list name is the base, one space, then the counter printed in
   * canonical decimal, so the text after the space reads back as `count`.
   */
  lemma ListNameParts(base: string, count: nat)
    ensures |ListName(base, count)| >= |base| + 2
    ensures ListName(base, count)[..|base|] == base && ListName(base, count)[|base|] == ' '
    ensures Text.IsCanonical(ListName(base, count)[|base| + 1..])
    ensures Text.DigitsValue(ListName(base, count)[|base| + 1..]) == count
  {
    assert ListName(base, count)[|base| + 1..] == Text.NatToString(count);
  }

  /** Different counters give different names. */
  lemma ListNameInjective(base: string, a: nat, b: nat)
    requires ListName(base, a) == ListName(base, b)
    ensures a == b
  {
    assert ListName(base, a)[|base| + 1..] == Text.NatToString(a);
    assert ListName(base, b)[|base| + 1..] == Text.NatToString(b);
    Text.NatToStringInjective(a, b);
  }

  /** The names with counters 1 through `count - 1`. */
  ghost function Taken(base: string, count: nat): set<string>
    decreases count
  {
    if count <= 1 then {} else Taken(base, count - 1) + {ListName(base, count - 1)}
  }

  /** A counter at or above `count` does not name one of `Taken(base, count)`. */
  lemma {:induction false} TakenBelow(base: string, count: nat, j: nat)
    requires j >= count
    ensures ListName(base, j) !in Taken(base, count)
    decreases count
  {
    if count > 1 {
      TakenBelow(base, count - 1, j);
      if ListName(base, count - 1) == ListName(base, j) {
        ListNameInjective(base, count - 1, j);
      }
    }
  }

  /** A counter below `count` names one of `Taken(base, count)`. */
  lemma {:induction false} TakenHas(base: string, count: nat, j: nat)
    requires 1 <= j < count
    ensures ListName(base, j) in Taken(base, count)
    decreases count
  {
    if j < count - 1 {
      TakenHas(base, count - 1, j);
    }
  }

  /** The names with counters 1 through `count - 1` are `count - 1` different names. */
  lemma {:induction false} TakenSize(base: string, count: nat)
    requires count >= 1
    ensures |Taken(base, count)| == count - 1
    decreases count
  {
    if count > 1 {
      TakenSize(base, count - 1);
      TakenBelow(base, count - 1, count - 1);
    }
  }

  /**
   * `create_unique_list_name`: tries "<base> 1", "<base> 2", ... and returns
   * the first name that is not a list yet, together with its counter. Every
   * smaller counter names an existing list, so the counter is the least free
   * one, and the search ends after at most one more try than there are lists.
   */
  method CreateUniqueListName(lists: map<string, TaskMap>, base: string) returns (name: string, count: nat)
    ensures count >= 1 && name == ListName(base, count)
    ensures name !in lists
    ensures forall j :: 1 <= j < count ==> ListName(base, j) in lists
    ensures count <= |lists| + 1
  {
    count := 1;
    while ListName(base, count) in lists
      invariant count >= 1
      invariant Taken(base, count) <= lists.Keys
      invariant count <= |lists| + 1
      decreases |lists| + 1 - count
    {
      TakenGrows(lists, base, count);
      count := count + 1;
    }
    name := ListName(base, count);
    forall j | 1 <= j < count
      ensures ListName(base, j) in lists
    {
      TakenHas(base, count, j);
    }
  }

  /**
   * One more try of the search: when "<base> <count>" is taken too, the
   * names tried so far still all exist, and there are more lists than tries.
   */
  lemma TakenGrows(lists: map<string, TaskMap>, base: string, count: nat)
    requires count >= 1 && Taken(base, count) <= lists.Keys
    requires ListName(base, count) in lists
    ensures Taken(base, count + 1) <= lists.Keys
    ensures count <= |lists|
  {
    assert Taken(base, count + 1) == Taken(base, count) + {ListName(base, count)};
    TakenSize(base, count + 1);
    SubsetSize(Taken(base, count + 1), lists.Keys);
  }

  lemma SubsetSize(a: set<string>, b: set<string>)
    requires a <= b
    ensures |a| <= |b|
  {
    assert b == a + (b - a);
  }

  /**
   * The data side of `add_tab`: a fresh list under the first free
   * "<base> <k>" name, returned with its counter.
   */
  method AddTab(reg: Registry, base: string) returns (r: Registry, name: string, count: nat)
    ensures count >= 1 && name == ListName(base, count)
    ensures forall j :: 1 <= j < count ==> ListName(base, j) in reg.lists
    ensures name !in reg.lists
    ensures r.lists == reg.lists[name := []]
    ensures r.current == reg.current
    ensures Valid(reg) ==> Valid(r)
  {
    name, count := CreateUniqueListName(reg.lists, base);
    r := reg.(lists := reg.lists[name := []]);
  }

  /**
   * `tab_changed`: selecting a tab makes its text the current list; the "+"
   * tab instead runs `add_new_list`, which adds a "List <k>" list and selects
   * its tab, so that list becomes current.
   */
  method TabChanged(reg: Registry, tab: string) returns (r: Registry)
    ensures tab != "+" ==> r == reg.(current := tab)
    ensures tab == "+" ==> r.current !in reg.lists && r.lists == reg.lists[r.current := []]
    ensures tab == "+" ==> exists k :: k >= 1 && r.current == ListName("List", k) && forall j :: 1 <= j < k ==> ListName("List", j) in reg.lists
    ensures Valid(reg) ==> Valid(r)
  {
    if tab == "+" {
      var name, count;
      r, name, count := AddTab(reg, "List");
      r := r.(current := name);
      assert count >= 1 && r.current == ListName("List", count);
    } else {
      r := reg.(current := tab);
    }
  }

  /**
   * `rename_tab.save_new_name`: the stripped new name must be non-empty and
   * not already a list name (so the list's own name is refused too); the
   * list then moves to the new name with its tasks. A stale list name makes
   * `pop` raise inside the callback. A refusal leaves the registry as it was.
   */
  function RenameList(reg: Registry, listName: string, entry: string): (r: Result<Registry, Error>)
    ensures r.Success? <==> Text.Strip(entry) != [] && Text.Strip(entry) !in reg.lists && listName in reg.lists
    ensures Text.Strip(entry) == [] || Text.Strip(entry) in reg.lists ==> r == Failure(InvalidName)
    ensures Text.Strip(entry) != [] && Text.Strip(entry) !in reg.lists && listName !in reg.lists ==> r == Failure(NoSuchList)
    ensures r.Success? ==> r.value.lists.Keys == reg.lists.Keys - {listName} + {Text.Strip(entry)}
    ensures r.Success? ==> r.value.lists[Text.Strip(entry)] == reg.lists[listName]
    ensures r.Success? ==> forall k :: k in reg.lists && k != listName ==> r.value.lists[k] == reg.lists[k]
    ensures r.Success? ==> r.value.current == reg.current
    ensures r.Success? && Valid(reg) ==> Valid(r.value)
  {
    var name := Text.Strip(entry);
    if name == [] || name in reg.lists then Failure(InvalidName)
    else if listName !in reg.lists then Failure(NoSuchList)
    else Success(reg.(lists := (reg.lists - {listName})[name := reg.lists[listName]]))
  }

  /** Renaming a list and renaming it back restores the registry. */
  lemma RenameRoundTrip(reg: Registry, a: string, b: string)
    requires a in reg.lists && Text.Strip(a) == a && a != []
    requires Text.Strip(b) == b && b != [] && b !in reg.lists
    ensures RenameList(reg, a, b).Success?
    ensures RenameList(RenameList(reg, a, b).value, b, a) == Success(reg)
  {
    var mid := RenameList(reg, a, b).value;
    assert a !in mid.lists;
    var back := RenameList(mid, b, a).value;
    assert back.lists == reg.lists;
  }

  /**
   * `delete_tab.confirm_delete`: nothing happens unless the user confirms;
   * then the list is dropped with all its tasks. A stale name raises inside
   * the callback.
   */
  function DeleteList(reg: Registry, name: string, confirmed: bool): (r: Result<Registry, Error>)
    ensures !confirmed ==> r == Success(reg)
    ensures confirmed ==> (r.Success? <==> name in reg.lists)
    ensures r.Failure? ==> r.error == NoSuchList
    ensures confirmed && r.Success? ==> r.value.lists.Keys == reg.lists.Keys - {name}
    ensures r.Success? ==> forall k :: k in r.value.lists ==> k in reg.lists && r.value.lists[k] == reg.lists[k]
    ensures r.Success? ==> r.value.current == reg.current
    ensures r.Success? && Valid(reg) ==> Valid(r.value)
  {
    if !confirmed then Success(reg)
    else if name !in reg.lists then Failure(NoSuchList)
    else Success(reg.(lists := reg.lists - {name}))
  }

  /**
   * Deleting "<base> k" when "<base> 1" ... "<base> k" all exist and then
   * adding a list under `base` gives back "<base> k": the lowest free
   * counter is reused.
   */
  method DeleteThenCreate(reg: Registry, base: string, k: nat) returns (name: string)
    requires k >= 1
    requires forall j :: 1 <= j <= k ==> ListName(base, j) in reg.lists
    ensures name == ListName(base, k)
  {
    var after := DeleteList(reg, ListName(base, k), true);
    var count;
    name, count := CreateUniqueListName(after.value.lists, base);
    if count < k {
      assert ListName(base, count) in reg.lists;
      if ListName(base, count) == ListName(base, k) {
        ListNameInjective(base, count, k);
      }
      assert false;
    }
  }

  /**
   * A task-tree edit of the named list: `add_task` on the selected tab's
   * list, `add_subtask`, `delete_task`, `delete_subtask` and
   * `mark_task_complete` on the list their row belongs to. An insertion of
   * blank text is dropped before the list is looked up; otherwise a stale
   * list name raises. Only the named list changes.
   */
  function EditList(reg: Registry, name: string, parent: seq<Key>, e: Edit): (r: Result<Registry, Error>)
    ensures e.Insert? && Text.Strip(e.entry) == [] ==> r == Success(reg)
    ensures !(e.Insert? && Text.Strip(e.entry) == []) ==> (r.Success? <==> name in reg.lists)
    ensures r.Failure? ==> r.error == NoSuchList
    ensures r.Success? ==> r.value.lists.Keys == reg.lists.Keys && r.value.current == reg.current
    ensures r.Success? && name in reg.lists ==> r.value.lists[name] == EditAt(reg.lists[name], parent, e)
    ensures r.Success? ==> forall k :: k in reg.lists && k != name ==> r.value.lists[k] == reg.lists[k]
    ensures r.Success? && Valid(reg) ==> Valid(r.value)
  {
    if e.Insert? && Text.Strip(e.entry) == [] then
      assert name in reg.lists ==> EditAt(reg.lists[name], parent, e) == reg.lists[name] by {
        if name in reg.lists { EditAtBlankInsert(reg.lists[name], parent, e); }
      }
      Success(reg)
    else if name !in reg.lists then Failure(NoSuchList)
    else
      var r := reg.(lists := reg.lists[name := EditAt(reg.lists[name], parent, e)]);
      assert Valid(reg) ==> Valid(r) by {
        if Valid(reg) { EditAtWellFormed(reg.lists[name], parent, e); }
      }
      Success(r)
  }

  /** Inserting blank text anywhere changes nothing. */
  lemma EditAtBlankInsert(m: TaskMap, parent: seq<Key>, e: Edit)
    requires e.Insert? && Text.Strip(e.entry) == []
    ensures EditAt(m, parent, e) == m
  {
    match ChildrenAt(m, parent)
    case None => EditAtMissing(m, parent, e);
    case Some(c) => EditAtNoop(m, parent, e);
  }
}

=== FILE: seqs.dfy ===
/** Facts about sequences that the task-tree and timer proofs share. */
module Seqs {

  /** Concatenation regroups freely. */
  lemma ConcatAssoc<T>(a: seq<T>, b: seq<T>, c: seq<T>)
    ensures a + b + c == a + (b + c)
  {
  }
}

=== FILE: tasks.dfy ===
/**
 * The task tree of one list. A task is a node holding a `completed` flag and
 * an insertion-ordered dict from subtask text to subtask node, the shape
 * `{"completed": False, "subtasks": {}}` of main.py; a list's tasks are such
 * a dict at the top level. Every mutation the window offers is an edit of
 * one of these dicts: insert a stripped text, delete a key with its subtree,
 * or flip one entry's flag.
 *
 * A path (a sequence of keys, read from the top-level dict downwards) stands
 * for the live dict reference the widget code passes around as `parent_task`.
 */
module Tasks {
  import opened Wrappers
  import Text
  import Seqs
  import opened AssocList

  datatype Node = Node(completed: bool, subtasks: seq<(Key, Node)>)

  type TaskMap = seq<(Key, Node)>

  /** The node every insertion creates: not completed, no subtasks. */
  const Fresh: Node := Node(false, [])

  /** Keys are distinct in every dict of the tree, at every depth. */
  predicate WellFormedNode(n: Node)
    decreases n
  {
    && DistinctKeys(n.subtasks)
    && forall i :: 0 <= i < |n.subtasks| ==> WellFormedNode(n.subtasks[i].1)
  }

  /** A task dict is well formed when it is as the children of a node. */
  predicate WellFormed(m: TaskMap)
  {
    WellFormedNode(Node(false, m))
  }

  /** Every entry of a well-formed dict holds a well-formed node. */
  lemma WellFormedEntry(m: TaskMap, k: Key)
    requires WellFormed(m)
    requires Lookup(m, k).Some?
    ensures WellFormedNode(Lookup(m, k).value)
  {
    var i := IndexOf(m, k);
    assert m[i].1 == Lookup(m, k).value;
  }

  /** A dict all of whose entries come from well-formed dicts, or are well formed, is well formed. */
  lemma WellFormedFromEntries(m: TaskMap, src: TaskMap, extra: (Key, Node))
    requires DistinctKeys(m)
    requires WellFormed(src) && WellFormedNode(extra.1)
    requires forall e :: e in m ==> e in src || e == extra
    ensures WellFormed(m)
  {
    forall i | 0 <= i < |m| ensures WellFormedNode(m[i].1) {
      assert m[i] in m;
      if m[i] in src {
        var j :| 0 <= j < |src| && src[j] == m[i];
      }
    }
  }

  /**
   * `add_task` (and `save_subtask` on a dict of subtasks): the entry text is
   * stripped; if nothing is left the dict is unchanged, otherwise the text is
   * bound to a fresh node. A text already present is NOT refused: it keeps
   * its position but its flag and subtree are replaced by a fresh node's.
   */
  function AddTask(m: TaskMap, entry: string): (r: TaskMap)
    ensures Text.Strip(entry) == [] ==> r == m
    ensures Text.Strip(entry) != [] ==> Lookup(r, Text.Strip(entry)) == Some(Fresh)
    ensures forall k :: k != Text.Strip(entry) ==> Lookup(r, k) == Lookup(m, k)
    ensures Keys(r) == if Text.Strip(entry) == [] || Text.Strip(entry) in Keys(m) then Keys(m)
                       else Keys(m) + [Text.Strip(entry)]
    ensures forall j :: 0 <= j < |m| && m[j].0 != Text.Strip(entry) ==> r[j] == m[j]
    ensures WellFormed(m) ==> WellFormed(r)
  {
    var text := Text.Strip(entry);
    if text == [] then m
    else
      var r := Put(m, text, Fresh);
      assert WellFormed(m) ==> WellFormed(r) by {
        if WellFormed(m) {
          WellFormedFromEntries(r, m, (text, Fresh));
        }
      }
      r
  }

  /**
   * `delete_task` (and `delete_subtask` on a dict of subtasks): an absent key
   * leaves the dict as it is; a present key is removed together with the
   * subtree under it, and the remaining entries keep their relative order.
   */
  function DeleteTask(m: TaskMap, k: Key): (r: TaskMap)
    ensures k !in Keys(m) ==> r == m
    ensures Lookup(r, k) == None
    ensures forall k' :: k' != k ==> Lookup(r, k') == Lookup(m, k')
    ensures DistinctKeys(m) && k in Keys(m) ==> r == m[..IndexOf(m, k)] + m[IndexOf(m, k) + 1..]
    ensures WellFormed(m) ==> WellFormed(r)
  {
    if k in Keys(m) then
      var r := Remove(m, k);
      assert DistinctKeys(m) ==> r == m[..IndexOf(m, k)] + m[IndexOf(m, k) + 1..] by {
        if DistinctKeys(m) { RemoveCutsEntry(m, k); }
      }
      assert WellFormed(m) ==> WellFormed(r) by {
        if WellFormed(m) {
          WellFormedFromEntries(r, m, ("", Fresh));
        }
      }
      r
    else m
  }

  /** The node with its flag flipped and its subtasks untouched. */
  function Flipped(n: Node): (f: Node)
    ensures f.completed != n.completed && f.subtasks == n.subtasks
  {
    n.(completed := !n.completed)
  }

  /**
   * `mark_task_complete`: an absent key leaves the dict as it is; a present
   * key keeps its position and subtasks and has its flag flipped.
   */
  function MarkTaskComplete(m: TaskMap, k: Key): (r: TaskMap)
    ensures Lookup(m, k).None? ==> r == m
    ensures Lookup(m, k).Some? ==> Lookup(r, k) == Some(Flipped(Lookup(m, k).value))
    ensures forall k' :: k' != k ==> Lookup(r, k') == Lookup(m, k')
    ensures Keys(r) == Keys(m)
    ensures WellFormed(m) ==> WellFormed(r)
  {
    match Lookup(m, k)
    case None => m
    case Some(n) =>
      var r := Put(m, k, Flipped(n));
      assert WellFormed(m) ==> WellFormed(r) by {
        if WellFormed(m) {
          WellFormedEntry(m, k);
          WellFormedFromEntries(r, m, (k, Flipped(n)));
        }
      }
      r
  }

  /** Toggling the same entry twice restores the dict exactly. */
  lemma MarkTaskCompleteTwice(m: TaskMap, k: Key)
    ensures MarkTaskComplete(MarkTaskComplete(m, k), k) == m
  {
    match Lookup(m, k)
    case None =>
    case Some(n) =>
      var m1 := MarkTaskComplete(m, k);
      assert Lookup(m1, k) == Some(Flipped(n));
      assert Flipped(Flipped(n)) == n;
      assert MarkTaskComplete(m1, k) == Put(m1, k, n);
      assert Keys(m1) == Keys(m);
      IndexOfSameKeys(m, m1, k);
      PutExisting(m, k, n);
  }

  /** One edit of one dict of the tree, as the window's buttons request them. */
  datatype Edit =
    | Insert(entry: string)   // the text typed into an entry box, before stripping
    | Delete(key: Key)
    | Toggle(key: Key)

  function Apply(m: TaskMap, e: Edit): (r: TaskMap)
    ensures WellFormed(m) ==> WellFormed(r)
  {
    match e
    case Insert(entry) => AddTask(m, entry)
    case Delete(k) => DeleteTask(m, k)
    case Toggle(k) => MarkTaskComplete(m, k)
  }

  /** The dict of subtasks owned by the node at `p`; the top-level dict for the empty path. */
  function ChildrenAt(m: TaskMap, p: seq<Key>): Option<TaskMap>
    decreases |p|
  {
    if |p| == 0 then Some(m)
    else
      match Lookup(m, p[0])
      case None => None
      case Some(n) => ChildrenAt(n.subtasks, p[1..])
  }

  /** The node at a non-empty path, if every key along it is present. */
  function NodeAt(m: TaskMap, q: seq<Key>): Option<Node>
    requires |q| > 0
    decreases |q|
  {
    match Lookup(m, q[0])
    case None => None
    case Some(n) => if |q| == 1 then Some(n) else NodeAt(n.subtasks, q[1..])
  }

  /** The completion flag of the node at `q`, if there is one. */
  function FlagAt(m: TaskMap, q: seq<Key>): Option<bool>
    requires |q| > 0
  {
    match NodeAt(m, q)
    case None => None
    case Some(n) => Some(n.completed)
  }

  /** `a` is `b` or an ancestor path of `b`. */
  predicate IsPrefix(a: seq<Key>, b: seq<Key>)
  {
    |a| <= |b| && b[..|a|] == a
  }

  /** `q` names a node that sits in the dict owned by `p` or deeper. */
  predicate StrictlyBelow(q: seq<Key>, p: seq<Key>)
  {
    |q| > |p| && q[..|p|] == p
  }

  /**
   * The edit `e` applied to the dict owned by the node at `p` (the top-level
   * dict when `p` is empty). Every ancestor on the way keeps its position and
   * flag and gets its rebuilt dict of subtasks back; when some key along `p`
   * is missing nothing changes.
   */
  function EditAt(m: TaskMap, p: seq<Key>, e: Edit): TaskMap
    decreases |p|
  {
    if |p| == 0 then Apply(m, e)
    else
      match Lookup(m, p[0])
      case None => m
      case Some(n) => Put(m, p[0], n.(subtasks := EditAt(n.subtasks, p[1..], e)))
  }

  /** An edit at a path that leads nowhere changes nothing. */
  lemma {:induction false} EditAtMissing(m: TaskMap, p: seq<Key>, e: Edit)
    requires ChildrenAt(m, p).None?
    ensures EditAt(m, p, e) == m
    decreases |p|
  {
    match Lookup(m, p[0])
    case None =>
    case Some(n) =>
      EditAtMissing(n.subtasks, p[1..], e);
      assert n.(subtasks := n.subtasks) == n;
      PutExisting(m, p[0], n);
  }

  /** An edit that changes nothing in the dict it reaches changes nothing in the tree. */
  lemma {:induction false} EditAtNoop(m: TaskMap, p: seq<Key>, e: Edit)
    requires ChildrenAt(m, p).Some?
    requires Apply(ChildrenAt(m, p).value, e) == ChildrenAt(m, p).value
    ensures EditAt(m, p, e) == m
    decreases |p|
  {
    if |p| > 0 {
      var n := Lookup(m, p[0]).value;
      EditAtNoop(n.subtasks, p[1..], e);
      assert n.(subtasks := n.subtasks) == n;
      PutExisting(m, p[0], n);
    }
  }

  /** An edit at a path that leads to a dict `c` leaves exactly `Apply(c, e)` there. */
  lemma {:induction false} EditAtTarget(m: TaskMap, p: seq<Key>, e: Edit)
    requires ChildrenAt(m, p).Some?
    ensures ChildrenAt(EditAt(m, p, e), p) == Some(Apply(ChildrenAt(m, p).value, e))
    decreases |p|
  {
    if |p| > 0 {
      var n := Lookup(m, p[0]).value;
      EditAtTarget(n.subtasks, p[1..], e);
    }
  }

  /** Edits keep every dict of the tree free of duplicate keys. */
  lemma {:induction false} EditAtWellFormed(m: TaskMap, p: seq<Key>, e: Edit)
    requires WellFormed(m)
    ensures WellFormed(EditAt(m, p, e))
    decreases |p|
  {
    if |p| > 0 {
      match Lookup(m, p[0])
      case None =>
      case Some(n) =>
        WellFormedEntry(m, p[0]);
        assert WellFormed(n.subtasks);
        EditAtWellFormed(n.subtasks, p[1..], e);
        var n' := n.(subtasks := EditAt(n.subtasks, p[1..], e));
        assert WellFormedNode(n');
        WellFormedFromEntries(EditAt(m, p, e), m, (p[0], n'));
    }
  }

  /** The nodes on the way to the edited dict keep their flags (and do not appear or vanish). */
  lemma {:induction false} EditAtKeepsAncestorFlags(m: TaskMap, p: seq<Key>, e: Edit, q: seq<Key>)
    requires |q| > 0 && IsPrefix(q, p)
    ensures FlagAt(EditAt(m, p, e), q) == FlagAt(m, q)
    decreases |q|
  {
    assert q[0] == p[0];
    match Lookup(m, p[0])
    case None =>
    case Some(n) =>
      if |q| > 1 {
        assert IsPrefix(q[1..], p[1..]);
        EditAtKeepsAncestorFlags(n.subtasks, p[1..], e, q[1..]);
      }
  }

  /** A node off the edited path is untouched, subtree and all. */
  lemma {:induction false} EditAtKeepsOffPath(m: TaskMap, p: seq<Key>, e: Edit, q: seq<Key>)
    requires |q| > 0 && !IsPrefix(q, p) && !IsPrefix(p, q)
    ensures NodeAt(EditAt(m, p, e), q) == NodeAt(m, q)
    decreases |q|
  {
    match Lookup(m, p[0])
    case None =>
    case Some(n) =>
      if q[0] == p[0] {
        assert |q| > 1;
        assert !IsPrefix(q[1..], p[1..]) && !IsPrefix(p[1..], q[1..]);
        EditAtKeepsOffPath(n.subtasks, p[1..], e, q[1..]);
      }
  }

  /**
   * Every dict on the way down `p`, the one `p` owns excluded, holds the
   * same keys in the same order in `a` as in `b`.
   */
  predicate SameKeysAbove(a: TaskMap, b: TaskMap, p: seq<Key>)
    decreases |p|
  {
    |p| == 0 ||
    (Keys(a) == Keys(b) &&
     match Lookup(a, p[0])
     case None => Lookup(b, p[0]).None?
     case Some(n) => Lookup(b, p[0]).Some? && SameKeysAbove(n.subtasks, Lookup(b, p[0]).value.subtasks, p[1..]))
  }

  /**
   * The dicts on the way to the edited one keep their keys in order: an edit
   * below the top level never adds, drops or reorders an ancestor's entries.
   */
  lemma {:induction false} EditAtKeepsKeysAbove(m: TaskMap, p: seq<Key>, e: Edit)
    ensures SameKeysAbove(m, EditAt(m, p, e), p)
    decreases |p|
  {
    if |p| > 0 {
      match Lookup(m, p[0])
      case None =>
      case Some(n) =>
        var r := EditAt(m, p, e);
        var n' := n.(subtasks := EditAt(n.subtasks, p[1..], e));
        assert Lookup(r, p[0]) == Some(n');
        EditAtKeepsKeysAbove(n.subtasks, p[1..], e);
    }
  }

  /**
   * An edit of the dict owned by `p` changes no flag except those of nodes in
   * that dict or below it: ancestors, siblings and unrelated tasks keep theirs.
   */
  lemma EditAtKeepsFlags(m: TaskMap, p: seq<Key>, e: Edit, q: seq<Key>)
    requires |q| > 0 && !StrictlyBelow(q, p)
    ensures FlagAt(EditAt(m, p, e), q) == FlagAt(m, q)
  {
    if IsPrefix(q, p) {
      EditAtKeepsAncestorFlags(m, p, e, q);
    } else if !IsPrefix(p, q) {
      EditAtKeepsOffPath(m, p, e, q);
    }
  }

  /** Flipping the same entry twice at any depth restores the whole tree. */
  lemma {:induction false} ToggleAtTwice(m: TaskMap, p: seq<Key>, k: Key)
    ensures EditAt(EditAt(m, p, Toggle(k)), p, Toggle(k)) == m
    decreases |p|
  {
    if |p| == 0 {
      MarkTaskCompleteTwice(m, k);
    } else {
      match Lookup(m, p[0])
      case None =>
      case Some(n) =>
        var m1 := EditAt(m, p, Toggle(k));
        var n1 := n.(subtasks := EditAt(n.subtasks, p[1..], Toggle(k)));
        assert Lookup(m1, p[0]) == Some(n1);
        ToggleAtTwice(n.subtasks, p[1..], k);
        assert n1.(subtasks := EditAt(n1.subtasks, p[1..], Toggle(k))) == n;
        assert EditAt(m1, p, Toggle(k)) == Put(m1, p[0], n);
        PutRestore(m, p[0], n, n1);
    }
  }

  /**
   * `save_subtask` reached through a row's "Add Subtask" button, which passes
   * that row's node as `parent_task`: the stripped text is inserted into the
   * dict of subtasks of the node at `parent`. Nothing else in the tree
   * changes: no flag outside that dict, no subtree off the path.
   */
  function AddSubtask(m: TaskMap, parent: seq<Key>, entry: string): (r: TaskMap)
    ensures ChildrenAt(m, parent).None? ==> r == m
    ensures ChildrenAt(m, parent).Some? ==> ChildrenAt(r, parent) == Some(AddTask(ChildrenAt(m, parent).value, entry))
    ensures forall q :: |q| > 0 && !StrictlyBelow(q, parent) ==> FlagAt(r, q) == FlagAt(m, q)
    ensures forall q :: |q| > 0 && !IsPrefix(q, parent) && !IsPrefix(parent, q) ==> NodeAt(r, q) == NodeAt(m, q)
    ensures |parent| > 0 ==> Keys(r) == Keys(m)
    ensures SameKeysAbove(m, r, parent)
    ensures WellFormed(m) ==> WellFormed(r)
  {
    var r := EditAt(m, parent, Insert(entry));
    assert ChildrenAt(m, parent).None? ==> r == m by {
      if ChildrenAt(m, parent).None? { EditAtMissing(m, parent, Insert(entry)); }
    }
    assert ChildrenAt(m, parent).Some? ==> ChildrenAt(r, parent) == Some(AddTask(ChildrenAt(m, parent).value, entry)) by {
      if ChildrenAt(m, parent).Some? { EditAtTarget(m, parent, Insert(entry)); }
    }
    assert forall q :: |q| > 0 && !StrictlyBelow(q, parent) ==> FlagAt(r, q) == FlagAt(m, q) by {
      forall q | |q| > 0 && !StrictlyBelow(q, parent) ensures FlagAt(r, q) == FlagAt(m, q) {
        EditAtKeepsFlags(m, parent, Insert(entry), q);
      }
    }
    assert WellFormed(m) ==> WellFormed(r) by {
      if WellFormed(m) { EditAtWellFormed(m, parent, Insert(entry)); }
    }
    assert forall q :: |q| > 0 && !IsPrefix(q, parent) && !IsPrefix(parent, q) ==> NodeAt(r, q) == NodeAt(m, q) by {
      forall q | |q| > 0 && !IsPrefix(q, parent) && !IsPrefix(parent, q) ensures NodeAt(r, q) == NodeAt(m, q) {
        EditAtKeepsOffPath(m, parent, Insert(entry), q);
      }
    }
    assert SameKeysAbove(m, r, parent) by {
      EditAtKeepsKeysAbove(m, parent, Insert(entry));
    }
    r
  }

  /**
   * `delete_subtask` with `parent_task` given: the key is removed from the
   * dict of subtasks of the node at `parent`, with everything under it. No
   * descendant of the removed node can be reached afterwards.
   */
  function DeleteSubtask(m: TaskMap, parent: seq<Key>, k: Key): (r: TaskMap)
    ensures ChildrenAt(m, parent).None? ==> r == m
    ensures ChildrenAt(m, parent).Some? ==> ChildrenAt(r, parent) == Some(DeleteTask(ChildrenAt(m, parent).value, k))
    ensures forall q :: |q| > 0 && !StrictlyBelow(q, parent) ==> FlagAt(r, q) == FlagAt(m, q)
    ensures forall q :: |q| > 0 && !IsPrefix(q, parent) && !IsPrefix(parent, q) ==> NodeAt(r, q) == NodeAt(m, q)
    ensures |parent| > 0 ==> Keys(r) == Keys(m)
    ensures SameKeysAbove(m, r, parent)
    ensures WellFormed(m) ==> WellFormed(r)
  {
    var r := EditAt(m, parent, Delete(k));
    assert ChildrenAt(m, parent).None? ==> r == m by {
      if ChildrenAt(m, parent).None? { EditAtMissing(m, parent, Delete(k)); }
    }
    assert ChildrenAt(m, parent).Some? ==> ChildrenAt(r, parent) == Some(DeleteTask(ChildrenAt(m, parent).value, k)) by {
      if ChildrenAt(m, parent).Some? { EditAtTarget(m, parent, Delete(k)); }
    }
    assert forall q :: |q| > 0 && !StrictlyBelow(q, parent) ==> FlagAt(r, q) == FlagAt(m, q) by {
      forall q | |q| > 0 && !StrictlyBelow(q, parent) ensures FlagAt(r, q) == FlagAt(m, q) {
        EditAtKeepsFlags(m, parent, Delete(k), q);
      }
    }
    assert WellFormed(m) ==> WellFormed(r) by {
      if WellFormed(m) { EditAtWellFormed(m, parent, Delete(k)); }
    }
    assert forall q :: |q| > 0 && !IsPrefix(q, parent) && !IsPrefix(parent, q) ==> NodeAt(r, q) == NodeAt(m, q) by {
      forall q | |q| > 0 && !IsPrefix(q, parent) && !IsPrefix(parent, q) ensures NodeAt(r, q) == NodeAt(m, q) {
        EditAtKeepsOffPath(m, parent, Delete(k), q);
      }
    }
    assert SameKeysAbove(m, r, parent) by {
      EditAtKeepsKeysAbove(m, parent, Delete(k));
    }
    r
  }

  /** After a deletion nothing at or below the deleted node is reachable. */
  lemma DeleteSubtaskUnreachable(m: TaskMap, parent: seq<Key>, k: Key, rest: seq<Key>)
    ensures NodeAt(DeleteSubtask(m, parent, k), parent + [k] + rest).None?
  {
    var r := DeleteSubtask(m, parent, k);
    var tail := [k] + rest;
    Seqs.ConcatAssoc(parent, [k], rest);
    NodeAtAppend(r, parent, tail);
    if ChildrenAt(m, parent).Some? {
      assert Lookup(ChildrenAt(r, parent).value, k).None?;
      assert tail[0] == k;
    }
  }

  /** Walking to the dict at `p` and then to the node at `q` is walking to the node at `p + q`. */
  lemma {:induction false} NodeAtAppend(m: TaskMap, p: seq<Key>, q: seq<Key>)
    requires |q| > 0
    ensures NodeAt(m, p + q) == match ChildrenAt(m, p)
                                case None => None
                                case Some(c) => NodeAt(c, q)
    decreases |p|
  {
    if |p| == 0 {
      assert p + q == q;
    } else {
      assert (p + q)[0] == p[0];
      assert (p + q)[1..] == p[1..] + q;
      match Lookup(m, p[0])
      case None =>
      case Some(n) => NodeAtAppend(n.subtasks, p[1..], q);
    }
  }

  /** Flipping the entry `k` of a dict changes the flag at path `[k]` and at no other path. */
  lemma ToggleChangesOneFlag(c: TaskMap, k: Key, q: seq<Key>)
    requires |q| > 0 && q != [k]
    ensures FlagAt(MarkTaskComplete(c, k), q) == FlagAt(c, q)
  {
    var c' := MarkTaskComplete(c, k);
    if q[0] == k && |q| > 1 {
      match Lookup(c, k)
      case None =>
      case Some(n) =>
        assert NodeAt(c', q) == NodeAt(Flipped(n).subtasks, q[1..]);
    }
  }

  function Last(q: seq<Key>): Key
    requires |q| > 0
  {
    q[|q| - 1]
  }

  function Parent(q: seq<Key>): (p: seq<Key>)
    requires |q| > 0
    ensures q == p + [Last(q)]
  {
    q[..|q| - 1]
  }

  /**
   * What the checkbox of the row showing the node at `row` does as written:
   * the row's callback passes only the node's own text to
   * `mark_task_complete`, which looks it up among the top-level tasks.
   */
  function RowCheckbox(m: TaskMap, row: seq<Key>): (r: TaskMap)
    requires |row| > 0
    ensures Keys(r) == Keys(m)
    ensures Last(row) in Keys(m) ==> FlagAt(r, [Last(row)]) == Some(!FlagAt(m, [Last(row)]).value)
    ensures Last(row) !in Keys(m) ==> r == m
    ensures forall q :: |q| > 0 && q != [Last(row)] ==> FlagAt(r, q) == FlagAt(m, q)
  {
    var r := MarkTaskComplete(m, Last(row));
    assert forall q :: |q| > 0 && q != [Last(row)] ==> FlagAt(r, q) == FlagAt(m, q) by {
      forall q | |q| > 0 && q != [Last(row)] ensures FlagAt(r, q) == FlagAt(m, q) {
        ToggleChangesOneFlag(m, Last(row), q);
      }
    }
    r
  }

  /** What the "Delete" button of the row showing the node at `row` does as written (top-level lookup). */
  function RowDelete(m: TaskMap, row: seq<Key>): (r: TaskMap)
    requires |row| > 0
    ensures Last(row) !in Keys(r)
    ensures Last(row) !in Keys(m) ==> r == m
    ensures forall k :: k != Last(row) ==> Lookup(r, k) == Lookup(m, k)
  {
    DeleteTask(m, Last(row))
  }

  /**
   * A subtask's checkbox and "Delete" button miss the subtask: unless some
   * top-level task happens to carry the same text, the tree is left exactly
   * as it was. When one does, that top-level task is flipped or deleted
   * instead.
   */
  lemma RowButtonsMissSubtask(m: TaskMap, row: seq<Key>)
    requires |row| >= 2 && NodeAt(m, row).Some?
    ensures Last(row) !in Keys(m) ==> RowCheckbox(m, row) == m && RowDelete(m, row) == m
    ensures Last(row) in Keys(m) ==> FlagAt(RowCheckbox(m, row), [Last(row)]) != FlagAt(m, [Last(row)])
    ensures Last(row) in Keys(m) ==> NodeAt(RowDelete(m, row), [Last(row)]).None?
  {
  }

  /** A concrete tree in which ticking the subtask's box leaves it unticked. */
  lemma RowCheckboxExample()
    ensures var m := [("Buy milk", Node(false, [("Buy 2%", Fresh)]))];
            var row := ["Buy milk", "Buy 2%"];
            && FlagAt(m, row) == Some(false)
            && FlagAt(RowCheckbox(m, row), row) == Some(false)
            && FlagAt(ToggleNode(m, row), row) == Some(true)
  {
    var m := [("Buy milk", Node(false, [("Buy 2%", Fresh)]))];
    var row := ["Buy milk", "Buy 2%"];
    assert Keys(m) == ["Buy milk"];
    assert "Buy 2%" !in Keys(m);
    RowButtonsMissSubtask(m, row);
  }

  /** The same tree: pressing "Delete" on the subtask's row leaves it in place. */
  lemma RowDeleteExample()
    ensures var m := [("Buy milk", Node(false, [("Buy 2%", Fresh)]))];
            var row := ["Buy milk", "Buy 2%"];
            && NodeAt(RowDelete(m, row), row) == Some(Fresh)
            && NodeAt(DeleteSubtask(m, Parent(row), Last(row)), row).None?
  {
    var m := [("Buy milk", Node(false, [("Buy 2%", Fresh)]))];
    var row := ["Buy milk", "Buy 2%"];
    assert Last(row) == "Buy 2%" && Keys(m) == ["Buy milk"];
    assert RowDelete(m, row) == m;
    assert NodeAt(m, row) == Some(Fresh) by {
      var sub := [("Buy 2%", Fresh)];
      assert Lookup(m, "Buy milk") == Some(Node(false, sub));
      assert row[1..] == ["Buy 2%"];
      assert Lookup(sub, "Buy 2%") == Some(Fresh);
    }
    DeleteNodeRemovesSubtree(m, row, []);
    assert row + [] == row;
  }

  /**
   * The evident intent of a row's checkbox: flip the flag of the node at
   * `row`, wherever it sits, and change nothing else. The flag at `row` is
   * the only flag of the whole tree that changes, and the node keeps its
   * subtasks.
   */
  function ToggleNode(m: TaskMap, row: seq<Key>): (r: TaskMap)
    requires |row| > 0
    ensures NodeAt(m, row).None? ==> r == m
    ensures NodeAt(m, row).Some? ==> NodeAt(r, row) == Some(Flipped(NodeAt(m, row).value))
    ensures forall q :: |q| > 0 && q != row ==> FlagAt(r, q) == FlagAt(m, q)
    ensures WellFormed(m) ==> WellFormed(r)
  {
    var r := EditAt(m, Parent(row), Toggle(Last(row)));
    ToggleNodeTarget(m, row);
    assert forall q :: |q| > 0 && q != row ==> FlagAt(r, q) == FlagAt(m, q) by {
      forall q | |q| > 0 && q != row ensures FlagAt(r, q) == FlagAt(m, q) {
        ToggleNodeOthers(m, row, q);
      }
    }
    assert WellFormed(m) ==> WellFormed(r) by {
      if WellFormed(m) { EditAtWellFormed(m, Parent(row), Toggle(Last(row))); }
    }
    r
  }

  /** The node at `row` is the one whose flag a toggle at its parent's dict flips. */
  lemma ToggleNodeTarget(m: TaskMap, row: seq<Key>)
    requires |row| > 0
    ensures var r := EditAt(m, Parent(row), Toggle(Last(row)));
            && (NodeAt(m, row).None? ==> r == m)
            && (NodeAt(m, row).Some? ==> NodeAt(r, row) == Some(Flipped(NodeAt(m, row).value)))
  {
    var p, k := Parent(row), Last(row);
    var r := EditAt(m, p, Toggle(k));
    assert row == p + [k];
    NodeAtAppend(m, p, [k]);
    NodeAtAppend(r, p, [k]);
    match ChildrenAt(m, p)
    case None =>
      EditAtMissing(m, p, Toggle(k));
    case Some(c) =>
      EditAtTarget(m, p, Toggle(k));
      if NodeAt(m, row).None? {
        assert Lookup(c, k).None?;
        EditAtNoop(m, p, Toggle(k));
      }
  }

  /** A toggle at the parent's dict of `row` leaves the flag at every other path alone. */
  lemma ToggleNodeOthers(m: TaskMap, row: seq<Key>, q: seq<Key>)
    requires |row| > 0 && |q| > 0 && q != row
    ensures FlagAt(EditAt(m, Parent(row), Toggle(Last(row))), q) == FlagAt(m, q)
  {
    var p, k := Parent(row), Last(row);
    var r := EditAt(m, p, Toggle(k));
    if StrictlyBelow(q, p) {
      var q' := q[|p|..];
      assert q == p + q';
      assert row == p + [k];
      assert q' != [k];
      NodeAtAppend(m, p, q');
      NodeAtAppend(r, p, q');
      match ChildrenAt(m, p)
      case None => EditAtMissing(m, p, Toggle(k));
      case Some(c) =>
        EditAtTarget(m, p, Toggle(k));
        ToggleChangesOneFlag(c, k, q');
    } else {
      EditAtKeepsFlags(m, p, Toggle(k), q);
    }
  }

  /** Ticking a box twice, at any depth, restores the whole tree. */
  lemma ToggleNodeTwice(m: TaskMap, row: seq<Key>)
    requires |row| > 0
    ensures ToggleNode(ToggleNode(m, row), row) == m
  {
    ToggleAtTwice(m, Parent(row), Last(row));
  }

  /**
   * The evident intent of a row's "Delete" button, which `delete_subtask`
   * with `parent_task` implements: the node at `row` and everything under it
   * become unreachable.
   */
  lemma DeleteNodeRemovesSubtree(m: TaskMap, row: seq<Key>, rest: seq<Key>)
    requires |row| > 0
    ensures NodeAt(DeleteSubtask(m, Parent(row), Last(row)), row + rest).None?
  {
    DeleteSubtaskUnreachable(m, Parent(row), Last(row), rest);
  }
}

=== FILE: text.dfy ===
/**
 * The few pieces of Python string behaviour the to-do list relies on:
 * `str.strip()` on user input, `str.isdigit()` and `int()` (with its limit
 * on the number of digits) on timer input,
 * and `str(n)` / `f"{n}"` when a list name or a clock label is formatted.
 */
module Text {

  /** The characters Python's `str.isspace()` accepts, which `str.strip()` removes. */
  const Whitespace: set<char> := {' ', '\U{9}', '\U{a}', '\U{b}', '\U{c}', '\U{d}', '\U{1c}', '\U{1d}', '\U{1e}', '\U{1f}', '\U{85}', '\U{a0}', '\U{1680}', '\U{2000}', '\U{2001}', '\U{2002}', '\U{2003}', '\U{2004}', '\U{2005}', '\U{2006}', '\U{2007}', '\U{2008}', '\U{2009}', '\U{200a}', '\U{2028}', '\U{2029}', '\U{202f}', '\U{205f}', '\U{3000}'}

  predicate IsSpace(c: char)
  {
    c in Whitespace
  }

  predicate AllSpace(s: string)
  {
    forall k :: 0 <= k < |s| ==> IsSpace(s[k])
  }

  /** Length of the run of whitespace that starts the string. */
  function LeadingSpace(s: string): (n: nat)
    ensures n <= |s|
    ensures AllSpace(s[..n])
    ensures n < |s| ==> !IsSpace(s[n])
  {
    if |s| == 0 || !IsSpace(s[0]) then 0
    else
      var n := 1 + LeadingSpace(s[1..]);
      assert s[..n] == [s[0]] + s[1..][..n - 1];
      n
  }

  /** Length of the run of whitespace that ends the string. */
  function TrailingSpace(s: string): (n: nat)
    ensures n <= |s|
    ensures AllSpace(s[|s| - n..])
    ensures n < |s| ==> !IsSpace(s[|s| - n - 1])
  {
    if |s| == 0 || !IsSpace(s[|s| - 1]) then 0
    else
      var t := s[..|s| - 1];
      var m := TrailingSpace(t);
      var n := m + 1;
      assert s[|s| - n..] == t[|t| - m..] + [s[|s| - 1]];
      AllSpaceSnoc(t[|t| - m..], s[|s| - 1]);
      assert n < |s| ==> s[|s| - n - 1] == t[|t| - m - 1];
      n
  }

  /** A whitespace character after a run of whitespace extends the run. */
  lemma AllSpaceSnoc(a: string, c: char)
    requires AllSpace(a) && IsSpace(c)
    ensures AllSpace(a + [c])
  {
  }

  /**
   * Python's `s.strip()`: the input with its leading and trailing whitespace
   * removed. The result is the infix of `s` left between two all-whitespace
   * ends, and it neither starts nor ends with whitespace, which makes it the
   * longest such trimming.
   */
  function Strip(s: string): (r: string)
    ensures |r| <= |s|
    ensures exists i :: 0 <= i <= |s| - |r| && r == s[i..i + |r|] && AllSpace(s[..i]) && AllSpace(s[i + |r|..])
    ensures |r| > 0 ==> !IsSpace(r[0]) && !IsSpace(r[|r| - 1])
    ensures |r| == 0 <==> AllSpace(s)
  {
    var lo := LeadingSpace(s);
    if lo == |s| then
      assert s[..lo] == s;
      assert s[lo..lo] == [] && s[lo..] == [];
      []
    else
      var hi := |s| - TrailingSpace(s);
      assert !IsSpace(s[lo]);
      assert lo < hi;
      var r := s[lo..hi];
      assert !AllSpace(s) by { assert !IsSpace(s[lo]); }
      assert r[0] == s[lo] && r[|r| - 1] == s[hi - 1];
      assert r == s[lo..lo + |r|] && AllSpace(s[..lo]) && AllSpace(s[lo + |r|..]);
      r
  }

  /** Stripping twice is stripping once. */
  lemma StripIdempotent(s: string)
    ensures Strip(Strip(s)) == Strip(s)
  {
    var r := Strip(s);
    var q := Strip(r);
    if |r| > 0 {
      var i :| 0 <= i <= |r| - |q| && q == r[i..i + |q|] && AllSpace(r[..i]) && AllSpace(r[i + |q|..]);
      assert i == 0;
      assert q == r;
    }
  }

  /** A string that starts and ends with a non-space character is its own strip. */
  lemma StripTrimmed(s: string)
    requires |s| > 0 ==> !IsSpace(s[0]) && !IsSpace(s[|s| - 1])
    ensures Strip(s) == s
  {
    var r := Strip(s);
    var i :| 0 <= i <= |s| - |r| && r == s[i..i + |r|] && AllSpace(s[..i]) && AllSpace(s[i + |r|..]);
    if |s| > 0 {
      assert i == 0;
    }
  }

  /** Printed numbers carry no whitespace to strip. */
  lemma StripNumber(n: nat)
    ensures Strip(NatToString(n)) == NatToString(n)
  {
    var s := NatToString(n);
    assert IsDigitChar(s[0]) && IsDigitChar(s[|s| - 1]);
    StripTrimmed(s);
  }

  predicate IsDigitChar(c: char)
  {
    '0' <= c <= '9'
  }

  /** Python's `s.isdigit()` restricted to ASCII: non-empty and made only of decimal digits. */
  predicate IsDigits(s: string)
  {
    |s| > 0 && forall k :: 0 <= k < |s| ==> IsDigitChar(s[k])
  }

  /** A digit string with no superfluous leading zero, the form `str(n)` produces. */
  predicate IsCanonical(s: string)
  {
    IsDigits(s) && (|s| > 1 ==> s[0] != '0')
  }

  /**
   * CPython's default `sys.get_int_max_str_digits()` (3.11 on, and the
   * 3.7-3.10 security releases): `int()` of a decimal string with more
   * digits than this raises a ValueError instead of returning a number.
   */
  const IntMaxStrDigits: nat := 4300

  /** Python's `int(s)` on a string of decimal digits (the empty string reads 0). */
  function DigitsValue(s: string): nat
    requires forall k :: 0 <= k < |s| ==> IsDigitChar(s[k])
  {
    if |s| == 0 then 0
    else DigitsValue(s[..|s| - 1]) * 10 + DigitValue(s[|s| - 1])
  }

  /** `k` zero digits. */
  function Zeros(k: nat): (z: string)
    ensures |z| == k && forall i :: 0 <= i < k ==> z[i] == '0'
  {
    if k == 0 then "" else "0" + Zeros(k - 1)
  }

  /** Zeros in front of a digit string leave a digit string. */
  lemma ZerosThenDigits(k: nat, x: string)
    requires IsDigits(x)
    ensures IsDigits(Zeros(k) + x)
  {
    var s := Zeros(k) + x;
    forall i | 0 <= i < |s|
      ensures IsDigitChar(s[i])
    {
      if i >= k {
        assert s[i] == x[i - k];
      }
    }
  }

  /** `int()` ignores a leading zero. */
  lemma {:induction false} LeadingZeroValue(t: string)
    requires forall i :: 0 <= i < |t| ==> IsDigitChar(t[i])
    ensures DigitsValue("0" + t) == DigitsValue(t)
    decreases |t|
  {
    var s := "0" + t;
    if |t| == 0 {
      assert DigitsValue(s[..0]) == 0;
    } else {
      var init := t[..|t| - 1];
      assert s[..|s| - 1] == "0" + init;
      assert s[|s| - 1] == t[|t| - 1];
      LeadingZeroValue(init);
    }
  }

  /**
   * `isdigit()` accepts a printed number behind any number of zeros, and
   * `int()` reads it back as that number.
   */
  lemma {:induction false} ZeroPaddedNumber(k: nat, n: nat)
    ensures IsDigits(Zeros(k) + NatToString(n))
    ensures DigitsValue(Zeros(k) + NatToString(n)) == n
    decreases k
  {
    var x := NatToString(n);
    ZerosThenDigits(k, x);
    if k > 0 {
      ZeroPaddedNumber(k - 1, n);
      var t := Zeros(k - 1) + x;
      assert Zeros(k) + x == "0" + t;
      LeadingZeroValue(t);
    } else {
      assert Zeros(k) + x == x;
    }
  }

  /**
   * Conversely, every string `isdigit()` accepts is a printed number behind
   * some zeros: the number `int()` reads from it.
   */
  lemma {:induction false} DigitsAreZeroPadded(s: string)
    requires IsDigits(s)
    ensures exists k :: s == Zeros(k) + NatToString(DigitsValue(s))
    decreases |s|
  {
    if IsCanonical(s) {
      CanonicalRoundTrip(s);
      assert s == Zeros(0) + NatToString(DigitsValue(s));
    } else {
      var t := s[1..];
      assert IsDigits(t);
      assert s == "0" + t;
      LeadingZeroValue(t);
      DigitsAreZeroPadded(t);
      var k: nat :| t == Zeros(k) + NatToString(DigitsValue(t));
      assert s == Zeros(k + 1) + NatToString(DigitsValue(s));
    }
  }

  function DigitValue(c: char): nat
    requires IsDigitChar(c)
  {
    c as int - '0' as int
  }

  function DigitChar(d: nat): (c: char)
    requires d < 10
    ensures IsDigitChar(c) && DigitValue(c) == d
  {
    (d + '0' as int) as char
  }

  /**
   * Python's `str(n)` for a non-negative integer (also what `f"{n}"` and
   * `'{:d}'.format(n)` print). Its partner is `DigitsValue`: reading the
   * text back gives `n` again, and the text is in canonical form.
   */
  function NatToString(n: nat): (r: string)
    ensures IsCanonical(r)
    ensures DigitsValue(r) == n
    ensures n < 10 <==> |r| == 1
  {
    if n < 10 then [DigitChar(n)]
    else
      var r := NatToString(n / 10) + [DigitChar(n % 10)];
      assert r[..|r| - 1] == NatToString(n / 10);
      r
  }

  /** Distinct numbers print differently. */
  lemma NatToStringInjective(a: nat, b: nat)
    requires NatToString(a) == NatToString(b)
    ensures a == b
  {
  }

  /** Printing what a canonical digit string reads as gives that string back. */
  lemma {:induction false} CanonicalRoundTrip(s: string)
    requires IsCanonical(s)
    ensures NatToString(DigitsValue(s)) == s
    decreases |s|
  {
    var p := s[..|s| - 1];
    var d := DigitValue(s[|s| - 1]);
    if |s| == 1 {
      assert DigitsValue(p) == 0;
      assert [DigitChar(d)] == s;
    } else {
      assert IsCanonical(p) by { assert p[0] == s[0]; }
      CanonicalRoundTrip(p);
      var v := DigitsValue(p);
      assert DigitsValue(s) == v * 10 + d;
      LastDigit(v, d);
      assert DigitChar(d) == s[|s| - 1];
      assert s == p + [s[|s| - 1]];
    }
  }

  /** Appending the digit `d` to the decimal number `v` is undone by `/ 10` and `% 10`. */
  lemma LastDigit(v: nat, d: nat)
    requires d < 10
    ensures (v * 10 + d) / 10 == v && (v * 10 + d) % 10 == d
  {
  }

  /**
   * `'{:02d}'.format(n)`: at least two digits, zero-padded on the left; from
   * 10 on it is exactly `str(n)`.
   */
  function Pad2(n: nat): (r: string)
    ensures IsDigits(r) && |r| >= 2
    ensures DigitsValue(r) == n
    ensures n < 100 ==> |r| == 2
    ensures n >= 10 ==> r == NatToString(n)
    ensures n < 10 ==> r[0] == '0' && r[1..] == NatToString(n)
  {
    if n < 10 then
      var r := "0" + NatToString(n);
      assert r[..1] == "0" && DigitsValue(r[..1]) == 0 by {
        assert DigitsValue(r[..1][..0]) == 0;
      }
      assert r[..|r| - 1] == "0";
      r
    else NatToString(n)
  }
}

=== FILE: wrappers.dfy ===
/** Failure-carrying result types shared by the modules of the to-do list model. */
module Wrappers {

  /** A value that may be absent, as a dict lookup that may miss. */
  datatype Option<+T> = None | Some(value: T)

  /** The outcome of a command that either produces a new state or is refused with an error. */
  datatype Result<+R, +E> = Success(value: R) | Failure(error: E)
}
